=== FILE: README.md ===
# Restaurant website: cart, menu and lookup logic in Dafny

This project models the data logic of the restaurant website. It leaves out the page markup, the network and the storage I/O. The pieces modelled are:

- **Persisted cart** (`Cart`, from `frontend/static/js/cart.js`):
  - The browser's `localStorage` entry and the module-level `cart` array are one explicit `Session` value.
  - Loading turns a missing or unparseable entry into the empty cart.
  - `addToCart` resolves the id (`_id || id`), reloads the cart, bumps the first matching line or appends a copy of the item with quantity 1, and writes the cart back. The write may fail.
  - The floating button's item count is `sum of (quantity || 1)`.
- **Older in-page cart** (`LegacyMenu`, from `static/js/menu.js`): the ten-dish sample catalogue, the category filter, add, remove, signed quantity change, and the reset after an accepted order.
- **Picture resolution** (`ImageResolver`, from `frontend/static/js/utils/image-resolver.js`): the `image_url` rule, the fixed candidate-property order, the path/URL test and the assets prefix.
- **Detail view** (`MenuRenderer`, from `frontend/static/js/ui/menuRenderer.js`): list normalisation of `allergens`/`dietary`, the inline `imgSrc` rule, the badge lists with their "None" case, ingredient lines, and the price guard.
- **Backend** (`MenuModel`, `MenuController`, `PyInt`):
  - the sixteen-record mock dataset;
  - the linear lookup by id;
  - the 400 / 404 / 200 decision of the item controller, with a simplified model of Python's `int()`.
- **URL builder** (`ApiConfig`, from `frontend/static/js/utils/config.js`).

Shared modules:
- `Json` gives JavaScript values as JSON data. It defines truthiness, `||`, strict equality and template-literal text.
- `Seqs` gives first-match search and order-preserving filtering.
- `Wrappers` gives `Option` and `Result`.

Parameters and conventions:
- These are function parameters and are not interpreted: `encodeURIComponent` (`encode`), number-to-text conversion in template literals (`num`), and `Number(v).toFixed(2)` (`toFixed`).
- A property that is not present (`undefined`) is `None`.
- Numbers are exact reals.

Behaviour of the code that the model keeps and that a reader may not expect:
- In `cart.js`, an id that is an array or an object never matches an existing line. `===` compares such values by reference, and the cart is freshly parsed from storage. Every add of such an item appends a new line (`Cart.ReferenceIdAlwaysAppends`). The one-line-per-id invariant still holds, because two such ids are never strictly equal.
- In `cart.js`, a stored line with quantity `-1` becomes `0` after an add. The count then treats it as 1, so the count rises by 2. `Cart.MergeCountsOneMore` therefore assumes every quantity is absent or at least 1, which is what `addToCart` itself maintains.
- In `menuRenderer.js`, a truthy `image` that is not a string makes `item.image.startsWith` throw a TypeError. `MenuRenderer.ImgSrc` and `MenuRenderer.RenderParts` return `Err("TypeError")` for it. The shared resolver skips such a value instead.
- `menuRenderer.js` inlines its own image rule. Its fallback on a load error is `hero-image.jpeg`, not the resolver's `fallback-image.jpeg`. Also, `menuRenderer.js` ignores `image_url` and the other candidate properties. The two rules are guaranteed to agree when there is no usable `image_url` and `image` is a non-empty string (`MenuRenderer.ImgSrcAgreesWithResolver`).

## Model

| member | source | states |
|---|---|---|
| `Json.Or` | frontend/static/js/cart.js:121 | `a \|\| b` is truthy iff either operand is; it is the left operand when that one is truthy, and the right operand otherwise |
| `Cart.EffectiveId` | frontend/static/js/cart.js:121 | the id is `_id` when `_id` is truthy, and `id` (possibly absent) otherwise |
| `Cart.Load` | frontend/static/js/cart.js:7-15 | a parsed entry loads as its lines; a missing, empty or unparseable entry loads as the empty cart, with no error |
| `Cart.Save` | frontend/static/js/cart.js:17-23 | after a successful write, loading gives back the saved cart; a failed write leaves the stored entry as it was |
| `Cart.LoadSaveRoundTrip` | frontend/static/js/cart.js:7-23 | load after save is the identity, so load, save, load reads what the first load read |
| `Cart.FindLine` | frontend/static/js/cart.js:131 | the line found is the first whose effective id is strictly equal to the item's; none is found exactly when no line matches |
| `Cart.NewLine` | frontend/static/js/cart.js:136-139 | the appended line copies every property of the item except `quantity`, has no property the item lacks, and has quantity 1 |
| `Cart.Merge` | frontend/static/js/cart.js:130-140 | the mutation grows the cart by at most one line |
| `Cart.AddToCart` | frontend/static/js/cart.js:120-143 | no truthy id leaves memory and storage untouched; otherwise memory is the merge of the freshly loaded cart; a successful write makes storage load as memory; a failed write leaves storage as it was |
| `Cart.InitCart` | frontend/static/js/cart.js:155-157 | initialisation sets memory to what storage loads as, and does not touch storage |
| `Cart.MergeExisting` | frontend/static/js/cart.js:131-134 | when the first matching line is at position i, the length is unchanged, line i keeps its properties with quantity `(quantity \|\| 1) + 1`, and every other line is unchanged |
| `Cart.MergeNew` | frontend/static/js/cart.js:135-140 | when no line matches, the result is the old cart followed by the item's copy with quantity 1, and that line has the item's id |
| `Cart.MergePreservesInvariants` | frontend/static/js/cart.js:130-140 | at most one line per effective id and all quantities absent or at least 1 both survive an add |
| `Cart.AddIgnoresStaleMemory` | frontend/static/js/cart.js:127-128 | for an item with an id, the result does not depend on the previous in-memory cart, only on storage |
| `Cart.ReferenceIdAlwaysAppends` | frontend/static/js/cart.js:131 | an item whose id is an array or object never matches, so every add appends |
| `Cart.TotalItems` | frontend/static/js/cart.js:67 | the empty cart counts 0; a cart whose lines have no quantity counts one per line; with quantities absent or positive the count is not negative |
| `Cart.TotalItemsAppend` | frontend/static/js/cart.js:67 | the item count of a concatenation is the sum of the counts |
| `Cart.TotalItemsAtLeastLines` | frontend/static/js/cart.js:67 | with quantities absent or at least 1, the count is at least the number of lines |
| `Cart.TotalItemsUpdate` | frontend/static/js/cart.js:67 | replacing one line changes the count by the difference of that line's `quantity \|\| 1` |
| `Cart.MergeCountsOneMore` | frontend/static/js/cart.js:130-140 | with quantities absent or at least 1, every add raises the displayed count by exactly 1 |
| `Cart.TwoAddsFromEmpty` | frontend/static/js/cart.js:120-143 | two adds of an item with a scalar id to an empty cart give one line with the item's properties, quantity 2, and a count of 2 in memory and in storage |
| `LegacyMenu.FindDish` | static/js/menu.js:157 | a dish found is in the catalogue and has the id; nothing is found exactly when no dish has the id |
| `LegacyMenu.FindDishFirst` | static/js/menu.js:157 | when several dishes share the id, the first of them is found, as `Array.find` returns |
| `LegacyMenu.FindEntry` | static/js/menu.js:160 | the line found is the first with the id; nothing is found exactly when no line has it |
| `LegacyMenu.FindDishUnambiguous` | static/js/menu.js:157 | with distinct ids, looking up a dish's id finds exactly that dish |
| `LegacyMenu.SampleMenuDistinct` | static/js/menu.js:15-106 | the ten sample dishes have pairwise distinct `_id`s |
| `LegacyMenu.FilterMenu` | static/js/menu.js:146-150 | "all" gives the whole catalogue; any other category gives only dishes of that category, from the catalogue, and every such dish |
| `LegacyMenu.FilterMenuKeepsOrder` | static/js/menu.js:149 | filtering a split catalogue filters each part and concatenates, so catalogue order is kept |
| `LegacyMenu.FilterMenuIdempotent` | static/js/menu.js:146-150 | filtering a filtered list again by the same category changes nothing |
| `LegacyMenu.SampleDesserts` | static/js/menu.js:52-69 | the "desserts" filter of the sample catalogue gives the chocolate cake and then the tiramisu |
| `LegacyMenu.AddToCart` | static/js/menu.js:156-169 | an id missing from the catalogue is a no-op; a new id appends the catalogue dish with quantity 1; an id in the cart keeps the line count |
| `LegacyMenu.AddExisting` | static/js/menu.js:160-163 | adding an id already in the cart raises that line's quantity by 1 and leaves every other line unchanged |
| `LegacyMenu.RemoveFromCart` | static/js/menu.js:171-174 | no remaining line has the id, every remaining line was in the cart, and every line with another id remains |
| `LegacyMenu.RemoveDeletesOneLine` | static/js/menu.js:172 | on a cart with distinct ids, removing deletes exactly the one line with that id and keeps the others in order |
| `LegacyMenu.RemoveAbsent` | static/js/menu.js:172 | removing an id no line has leaves the cart unchanged |
| `LegacyMenu.UpdateQuantity` | static/js/menu.js:176-186 | an unknown id changes nothing, and the cart never grows |
| `LegacyMenu.UpdateExisting` | static/js/menu.js:179-185 | on a cart with distinct ids, the line's quantity becomes quantity + change when that is positive; otherwise that line alone is deleted; no other line changes |
| `LegacyMenu.AddPreservesWf` | static/js/menu.js:156-169 | adding keeps one line per id, quantities of at least 1, and each line equal to its catalogue dish |
| `LegacyMenu.RemovePreservesWf` | static/js/menu.js:171-174 | removing keeps the cart well formed |
| `LegacyMenu.UpdatePreservesWf` | static/js/menu.js:176-186 | changing a quantity by any whole number keeps the cart well formed |
| `LegacyMenu.AfterOrder` | static/js/menu.js:267-275 | an accepted order empties the cart; a rejected one keeps it |
| `LegacyMenu.AddAfterOrder` | static/js/menu.js:267-270 | after an accepted order, adding a catalogue dish gives the one-line cart with that dish and quantity 1 |
| `ImageResolver.Trim` | frontend/static/js/utils/image-resolver.js:12 | `trim()` never lengthens text, and leaves text that neither starts nor ends with white space unchanged |
| `ImageResolver.TrimEmptyIffBlank` | frontend/static/js/utils/image-resolver.js:12 | `trim()` gives the empty string exactly when every character is JavaScript white space |
| `ImageResolver.FromFilename` | frontend/static/js/utils/image-resolver.js:23-25 | a value starting with "/" or "http" is kept; anything else is the assets prefix followed by the encoded name |
| `ImageResolver.ScanCandidates` | frontend/static/js/utils/image-resolver.js:17-30 | the candidate loop always gives a non-empty string |
| `ImageResolver.ResolveImageUrl` | frontend/static/js/utils/image-resolver.js:5-30 | the result is never empty; anything but an object gives the fallback; a string `image_url` with a non-space character is returned verbatim, untrimmed |
| `ImageResolver.ScanFindsFirstUsable` | frontend/static/js/utils/image-resolver.js:18-25 | the result comes from the first key holding a truthy string, whatever later keys hold |
| `ImageResolver.ScanFallsBack` | frontend/static/js/utils/image-resolver.js:17-30 | with no key holding a truthy string, the scan gives the fallback |
| `ImageResolver.ResolveUsesFirstCandidate` | frontend/static/js/utils/image-resolver.js:17-30 | without a usable `image_url`, the result follows the first usable property in the order image, filename, img, imageName, photo, imgUrl, imagePath, or is the fallback |
| `ImageResolver.BlankImageUrlIgnored` | frontend/static/js/utils/image-resolver.js:12-14 | an `image_url` made only of white space is ignored and the candidate scan decides |
| `MenuRenderer.NormalizeList` | frontend/static/js/ui/menuRenderer.js:15-17 | an array is kept; a truthy non-array becomes a one-element list of itself; a falsy or absent value becomes the empty list |
| `MenuRenderer.ScalarRendersAsSingleton` | frontend/static/js/ui/menuRenderer.js:14-17 | a single truthy non-array `dietary` or `allergens` value renders the same badges as the one-element array holding it |
| `MenuRenderer.ImgSrc` | frontend/static/js/ui/menuRenderer.js:20-24 | no source exactly when `image` is falsy; a TypeError exactly when `image` is truthy but not a string; otherwise the source is `image` kept when it starts with "/" or "http", and the assets prefix plus the encoded name if not, whatever `image_url` holds |
| `MenuRenderer.FieldText` | frontend/static/js/ui/menuRenderer.js:27 | `${item.name}` is the name's text, or "undefined" when the item has no name |
| `MenuRenderer.ImgHtml` | frontend/static/js/ui/menuRenderer.js:26-28 | the tag is empty exactly when there is no source, and fails exactly when `imgSrc` throws; otherwise its `src` is the computed source, its `alt` is the name's text, and it ends with the `onerror` handler that swaps in `hero-image.jpeg` |
| `MenuRenderer.ImgSrcAgreesWithResolver` | frontend/static/js/ui/menuRenderer.js:20-24 | with no usable `image_url` and a non-empty string `image`, the inline rule and `resolveImageUrl` give the same URL |
| `MenuRenderer.BadgeList` | frontend/static/js/ui/menuRenderer.js:44-49 | a one-element list renders as that element's single badge |
| `MenuRenderer.FieldBadges` | frontend/static/js/ui/menuRenderer.js:43-56 | the dietary or allergens text is "None" exactly when the normalised list is empty, and otherwise the badges of the normalised list |
| `MenuRenderer.BadgeListNoneIffEmpty` | frontend/static/js/ui/menuRenderer.js:44-49 | the text is "None" exactly when the list is empty |
| `MenuRenderer.BadgeListSnoc` | frontend/static/js/ui/menuRenderer.js:46 | one more element appends one more badge after a single space, so badges follow list order |
| `MenuRenderer.FieldBadgesScalarOrAbsent` | frontend/static/js/ui/menuRenderer.js:15-17 | a truthy non-array `dietary` or `allergens` value renders as one badge; an absent or falsy one as "None" |
| `MenuRenderer.IngredientLine` | frontend/static/js/ui/menuRenderer.js:33-39 | a falsy entry renders nothing; a string s renders as `<li>s</li>`; a record renders its name text in bold, followed by ": " and the description exactly when the description is truthy; a number, `true` or an array renders an empty bold name |
| `MenuRenderer.NameText` | frontend/static/js/ui/menuRenderer.js:37 | the name shown is the name's text when it is truthy, and empty otherwise |
| `MenuRenderer.IngredientItems` | frontend/static/js/ui/menuRenderer.js:33-40 | a one-entry list renders as that entry's line |
| `MenuRenderer.IngredientsBlock` | frontend/static/js/ui/menuRenderer.js:31-42 | the block is emitted exactly for a non-empty array, and is then the ingredients heading, the entries' lines in order, and the closing tags |
| `MenuRenderer.IngredientItemsAppend` | frontend/static/js/ui/menuRenderer.js:33-40 | the lines of a split list are the lines of each part, in order |
| `MenuRenderer.IngredientItemsSkipFalsy` | frontend/static/js/ui/menuRenderer.js:34 | a falsy entry anywhere in the list contributes nothing |
| `MenuRenderer.PriceText` | frontend/static/js/ui/menuRenderer.js:57 | an absent or null price gives the empty string; any other value is formatted |
| `MenuRenderer.PriceTextEmptyIffMissing` | frontend/static/js/ui/menuRenderer.js:57 | for a formatter that never returns the empty string, the price text is empty exactly when the price is absent or null |
| `MenuRenderer.RenderParts` | frontend/static/js/ui/menuRenderer.js:11-57 | rendering fails exactly on a truthy non-string `image`; otherwise each piece is the one defined for it, the image piece being `ImgHtml`'s tag, which is empty exactly when `image` is falsy |
| `MenuModel.DatasetIds` | backend/api/v1/menu/menu_model.py:14-191 | the dataset has 16 records with ids 1 to 16 in order, pairwise distinct |
| `MenuModel.ListAllMenuItems` | backend/api/v1/menu/menu_model.py:194-208 | the list is the dataset itself: its 16 records unchanged, ids 1 to 16 in order |
| `MenuModel.MenuById` | backend/api/v1/menu/menu_model.py:224-227 | nothing is found exactly when no record has the id; a record found has the id and belongs to the list |
| `MenuModel.GetMenuById` | backend/api/v1/menu/menu_model.py:211-227 | the loop returns the first record with the id in list order, and `None` exactly when there is none |
| `MenuModel.MenuByIdUnique` | backend/api/v1/menu/menu_model.py:224-226 | with distinct ids, looking up a record's id finds that record |
| `MenuModel.DatasetLookup` | backend/api/v1/menu/menu_model.py:224-227 | in the dataset, ids 1 to 16 find the record at position id - 1, and every other integer finds nothing |
| `PyInt.ParseInt` | backend/api/v1/menu/menu_controller.py:38-41 | text without a digit is refused, and so is text with more than 4300 digits |
| `PyInt.ParseIntText` | backend/api/v1/menu/menu_controller.py:39 | `int(str(n)) == n` for every integer n that `str` prints, that is one of at most 4300 digits |
| `PyInt.ParseIntPadded` | backend/api/v1/menu/menu_controller.py:39 | surrounding white space and an underscore between digits are accepted |
| `PyInt.ParseIntSigned` | backend/api/v1/menu/menu_controller.py:39 | a sign and leading zeros are accepted |
| `PyInt.ParseIntRejects` | backend/api/v1/menu/menu_controller.py:38-41 | words, the empty string and doubled underscores are refused |
| `PyInt.ParseIntRefusesSeparator` | backend/api/v1/menu/menu_controller.py:39 | an ASCII information separator such as U+001C is not stripped, so `"\x1c5"` is refused |
| `MenuController.ParseId` | backend/api/v1/menu/menu_controller.py:38-41 | an integer argument is used as it is; text without a digit, or with more than 4300 digits, is malformed |
| `MenuController.GetMenu` | backend/api/v1/menu/menu_controller.py:12-19 | the list response has status 200 and carries the dataset's 16 records unchanged |
| `MenuController.GetMenuItem` | backend/api/v1/menu/menu_controller.py:22-46 | the status is 200, 400 or 404. It is 400 with "malformed input" exactly when parsing fails, and 200 exactly when the parsed id is found, with the record found. It is 404 exactly with "Item not found" |
| `MenuController.GetMenuItemStatus` | backend/api/v1/menu/menu_controller.py:38-46 | for the dataset, a parsed id from 1 to 16 gives 200 with that record; any other parsed integer gives 404 |
| `MenuController.PrintedIdIsFound` | backend/api/v1/menu/menu_controller.py:38-46 | a request whose path segment is a record's printed id gets that record with 200 |
| `ApiConfig.ApiUrl` | frontend/static/js/utils/config.js:18 | the URL starts with the base and "/", ends with the endpoint, and has length base + 1 + endpoint |
| `ApiConfig.EndpointOf` | frontend/static/js/utils/config.js:18 | an endpoint read from a URL accounts for the URL's whole length after the base and "/" |
| `ApiConfig.EndpointOfApiUrl` | frontend/static/js/utils/config.js:18 | reading the endpoint back from a built URL gives the endpoint |
| `ApiConfig.ApiUrlOfEndpoint` | frontend/static/js/utils/config.js:18 | every URL under the base is the URL built from its endpoint |
| `ApiConfig.ApiUrlInjective` | frontend/static/js/utils/config.js:6-18 | different endpoints give different URLs |
| `ApiConfig.ApiUrlExamples` | frontend/static/js/utils/config.js:12-13 | `apiUrl("menu")` and `apiUrl("menu/3")` are the documented URLs |

## Left out

- DOM construction, styling, event wiring, the modal, notifications and their timers are left out, as are the floating button's markup and the surrounding HTML of the detail fragment. These are browser effects with no data logic beyond what is modelled.
- `fetch`, `fetchData`, `menuService`, order and contact form POSTs, the Flask and MongoDB routes, `init_db.py` and the page tests are left out. They are I/O wrappers around libraries that are not part of this model.
- Price totals and `toFixed` formatting are floating-point arithmetic and text formatting. `toFixed` is a parameter.
- `encodeURIComponent` is a parameter. Its UTF-8 percent-encoding (ECMA-262 URI handling functions) is not modelled.
- Number-to-string conversion in template literals (ECMA-262 Number::toString) is a parameter.
- JSON parsing of the stored cart is left out. Only the outcome is modelled: parsed lines, a missing or empty entry, or a parse failure. A payload that parses to something other than an array is not modelled, and neither is an array holding `null` (stored text `[null]`): in `cart.js` such an element makes the id lookup of `addToCart` and the `quantity` read of the count throw a TypeError, while the model's `Load` always yields lines and `Cart.AddToCart` always succeeds. Other non-object elements (numbers, strings, booleans) behave like a line with no fields and no quantity, which `Line` represents.
- A stored cart quantity that is truthy but not a number is not modelled. For a string, an array or an object, JavaScript turns `+ 1` into string concatenation. A stored `true` adds as 1, so it behaves exactly like quantity 1. The `Line` type keeps quantities numeric or absent, and null, false and absent all behave like absent.
- Strings are sequences of Unicode scalar values, not of UTF-16 code units, so a lone surrogate cannot occur. The `URIError` that `encodeURIComponent` throws on one (frontend/static/js/utils/image-resolver.js:25, frontend/static/js/ui/menuRenderer.js:23) is not modelled, and `ImageResolver.ResolveImageUrl`'s promise never to fail holds for the strings modelled.
- Numbers have no NaN, no infinity and no binary rounding. They are exact reals.
- Cart.MergeCountsOneMore: assumes every stored quantity is absent or at least 1. A stored quantity of -1 would make the count rise by 2.
- Cart.TwoAddsFromEmpty: assumes the id is a string, number or boolean. An array or object id appends a second line instead (`Cart.ReferenceIdAlwaysAppends`).
- PyInt.ParseInt models Python's `int()` with these simplifications:
  - digits are ASCII only, although Python also accepts other Unicode decimal digits;
  - white space is the set of characters `int()` strips, listed in `IsPySpace`: the ASCII tab, line feed, vertical tab, form feed, carriage return and space, and the non-ASCII `str.isspace` characters, but not U+001C to U+001F;
  - any other argument type (`None`, floats) is not modelled; the controller receives only text or an integer;
  - it follows interpreters with the 4300-digit limit of `sys.get_int_max_str_digits()`, which is CPython 3.11 and later and the 2022 security releases of 3.7 to 3.10. Older interpreters parse longer decimal text, which then gets 404 instead of 400.
- Cross-tab races on `localStorage` are left out. The model is one session acting alone.

=== FILE: api_config.dfy ===
/** Building absolute API URLs on the front end (frontend/static/js/utils/config.js). */
module ApiConfig {
  import opened Wrappers

  /** `BASE_API_URL` */
  const BaseApiUrl: string := "http://127.0.0.1:5000/api/v1"

  /** `apiUrl(endpoint)`: the base, one slash, and the endpoint as given. */
  function ApiUrl(endpoint: string): (r: string)
    ensures BaseApiUrl + "/" <= r
    ensures |r| == |BaseApiUrl| + 1 + |endpoint|
    ensures r[|BaseApiUrl| + 1..] == endpoint
  {
    BaseApiUrl + "/" + endpoint
  }

  /** The endpoint an API URL was built from, or `None` for a URL outside the API. */
  function EndpointOf(url: string): (r: Option<string>)
    ensures r.Some? ==> |url| == |BaseApiUrl| + 1 + |r.value|
  {
    if BaseApiUrl + "/" <= url then Some(url[|BaseApiUrl| + 1..]) else None
  }

  /** Reading the endpoint back from a built URL gives the endpoint. */
  lemma EndpointOfApiUrl(endpoint: string)
    ensures EndpointOf(ApiUrl(endpoint)) == Some(endpoint)
  {
  }

  /** Every URL with an endpoint is the URL built from it. */
  lemma ApiUrlOfEndpoint(url: string)
    requires EndpointOf(url).Some?
    ensures ApiUrl(EndpointOf(url).value) == url
  {
    assert url == url[..|BaseApiUrl| + 1] + url[|BaseApiUrl| + 1..];
  }

  /** Different endpoints give different URLs. */
  lemma ApiUrlInjective(e1: string, e2: string)
    requires ApiUrl(e1) == ApiUrl(e2)
    ensures e1 == e2
  {
    EndpointOfApiUrl(e1);
    EndpointOfApiUrl(e2);
  }

  /** The two URLs the front end requests. */
  lemma ApiUrlExamples()
    ensures ApiUrl("menu") == "http://127.0.0.1:5000/api/v1/menu"
    ensures ApiUrl("menu/3") == "http://127.0.0.1:5000/api/v1/menu/3"
  {
  }
}

=== FILE: cart.dfy ===
/**
 * The persisted shopping cart of the menu page (frontend/static/js/cart.js).
 *
 * The browser's `localStorage` entry "cart" and the module-level `cart`
 * array are explicit values (`Session`); a failing `localStorage.setItem`
 * is the boolean `writeOk`.
 */
module Cart {
  import opened Wrappers
  import opened Json
  import Seqs

  /**
   * One cart line: a shallow copy of the item's properties and the
   * `quantity` property kept apart.  `None` stands for a quantity that is
   * absent, `null` or `false`; all of them behave alike under `quantity || 1`.
   */
  datatype Line = Line(fields: Record, quantity: Option<real>)

  /** What `localStorage.getItem("cart")` holds, as seen after parsing it. */
  datatype Stored =
    | Absent                      // no entry, or the empty string
    | Unparseable                 // `JSON.parse` throws
    | Lines(lines: seq<Line>)     // a parsed cart

  /** The in-memory cart and the persisted entry. */
  datatype Session = Session(memory: seq<Line>, storage: Stored)

  /** `quantity || 1` */
  function QuantityOrOne(q: Option<real>): (r: real)
    ensures r != 0.0
    ensures q.Some? && q.value != 0.0 ==> r == q.value
  {
    if q.Some? && q.value != 0.0 then q.value else 1.0
  }

  /** The id a record is filed under: `_id` when it is truthy, otherwise `id`. */
  function EffectiveId(o: Record): (r: Option<Json>)
    ensures Present(Get(o, "_id")) ==> r == Get(o, "_id")
    ensures !Present(Get(o, "_id")) ==> r == Get(o, "id")
  {
    Or(Get(o, "_id"), Get(o, "id"))
  }

  function LineId(l: Line): (r: Option<Json>)
    ensures r == EffectiveId(l.fields)
  {
    EffectiveId(l.fields)
  }

  /** At most one line per effective id. */
  predicate UniqueIds(cart: seq<Line>) {
    forall i, j :: 0 <= i < j < |cart| ==> !StrictEquals(LineId(cart[i]), LineId(cart[j]))
  }

  /** Every quantity is absent or at least 1. */
  predicate QuantitiesAtLeastOne(cart: seq<Line>) {
    forall i :: 0 <= i < |cart| ==> cart[i].quantity.None? || cart[i].quantity.value >= 1.0
  }

  // ---------------------------------------------------------------------------
  // Storage
  // ---------------------------------------------------------------------------

  /** `loadCartFromStorage`: a missing entry and a parse failure both give the empty cart. */
  function Load(s: Stored): (r: seq<Line>)
    ensures s.Lines? ==> r == s.lines
    ensures !s.Lines? ==> r == []
  {
    match s
    case Lines(ls) => ls
    case _ => []
  }

  /** `saveCartToStorage`: a failed write leaves the stored entry as it was. */
  function Save(s: Stored, cart: seq<Line>, writeOk: bool): (r: Stored)
    ensures writeOk ==> Load(r) == cart
    ensures !writeOk ==> r == s
  {
    if writeOk then Lines(cart) else s
  }

  /** Loading what was saved gives back the cart; in particular load, save, load reads what the first load read. */
  lemma LoadSaveRoundTrip(s: Stored, cart: seq<Line>)
    ensures Load(Save(s, cart, true)) == cart
    ensures Load(Save(s, Load(s), true)) == Load(s)
  {
  }

  // ---------------------------------------------------------------------------
  // Adding an item
  // ---------------------------------------------------------------------------

  /** `cart.find((i) => (i._id || i.id) === id)`, as the position of the line found. */
  function FindLine(cart: seq<Line>, id: Option<Json>): (r: Option<nat>)
    ensures r.Some? ==> r.value < |cart| && StrictEquals(LineId(cart[r.value]), id)
    ensures r.Some? ==> forall j :: 0 <= j < r.value ==> !StrictEquals(LineId(cart[j]), id)
    ensures r.None? <==> forall j :: 0 <= j < |cart| ==> !StrictEquals(LineId(cart[j]), id)
  {
    Seqs.FirstIndex(cart, (l: Line) => StrictEquals(LineId(l), id))
  }

  /** The new line for an item: every property copied, then `quantity: 1`. */
  function NewLine(item: Record): (r: Line)
    ensures r.quantity == Some(1.0)
    ensures "quantity" !in r.fields
    ensures forall k :: k in item && k != "quantity" ==> k in r.fields && r.fields[k] == item[k]
    ensures forall k :: k in r.fields ==> k in item
  {
    Line(item - {"quantity"}, Some(1.0))
  }

  /** The mutation step of `addToCart`: bump the first matching line, or append a new one. */
  function Merge(cart: seq<Line>, item: Record): (r: seq<Line>)
    requires Present(EffectiveId(item))
    ensures |r| == |cart| || |r| == |cart| + 1
  {
    match FindLine(cart, EffectiveId(item))
    case Some(i) =>
      cart[i := Line(cart[i].fields, Some(QuantityOrOne(cart[i].quantity) + 1.0))]
    case None =>
      cart + [NewLine(item)]
  }

  /**
   * `addToCart(item)`: an item without a truthy `_id` or `id` changes nothing;
   * otherwise the cart is reloaded from storage, merged, and written back.
   */
  function AddToCart(s: Session, item: Record, writeOk: bool): (r: Session)
    ensures !Present(EffectiveId(item)) ==> r == s
    ensures Present(EffectiveId(item)) ==> r.memory == Merge(Load(s.storage), item)
    ensures Present(EffectiveId(item)) && writeOk ==> Load(r.storage) == r.memory
    ensures !writeOk ==> r.storage == s.storage
  {
    if !Present(EffectiveId(item)) then s
    else
      var cart := Merge(Load(s.storage), item);
      Session(cart, Save(s.storage, cart, writeOk))
  }

  /** `initCartUI`: the in-memory cart becomes what storage holds. */
  function InitCart(s: Session): (r: Session)
    ensures r.storage == s.storage
    ensures r.memory == Load(s.storage)
  {
    Session(Load(s.storage), s.storage)
  }

  /** When a line with the item's id exists, its quantity becomes `(quantity || 1) + 1` and no other line changes. */
  lemma MergeExisting(cart: seq<Line>, item: Record, i: nat)
    requires Present(EffectiveId(item))
    requires i < |cart| && StrictEquals(LineId(cart[i]), EffectiveId(item))
    requires forall j :: 0 <= j < i ==> !StrictEquals(LineId(cart[j]), EffectiveId(item))
    ensures |Merge(cart, item)| == |cart|
    ensures Merge(cart, item)[i].fields == cart[i].fields
    ensures Merge(cart, item)[i].quantity == Some(QuantityOrOne(cart[i].quantity) + 1.0)
    ensures forall j :: 0 <= j < |cart| && j != i ==> Merge(cart, item)[j] == cart[j]
  {
    assert FindLine(cart, EffectiveId(item)) == Some(i);
  }

  /** When no line has the item's id, a copy of the item with quantity 1 goes at the end and earlier lines stay. */
  lemma MergeNew(cart: seq<Line>, item: Record)
    requires Present(EffectiveId(item))
    requires forall j :: 0 <= j < |cart| ==> !StrictEquals(LineId(cart[j]), EffectiveId(item))
    ensures Merge(cart, item) == cart + [NewLine(item)]
    ensures LineId(NewLine(item)) == EffectiveId(item)
  {
  }

  /** Merging keeps "one line per id" and "every quantity at least 1". */
  lemma MergePreservesInvariants(cart: seq<Line>, item: Record)
    requires Present(EffectiveId(item))
    requires UniqueIds(cart) && QuantitiesAtLeastOne(cart)
    ensures UniqueIds(Merge(cart, item)) && QuantitiesAtLeastOne(Merge(cart, item))
  {
    var id := EffectiveId(item);
    var r := Merge(cart, item);
    match FindLine(cart, id)
    case Some(i) =>
      forall a, b | 0 <= a < b < |r|
        ensures !StrictEquals(LineId(r[a]), LineId(r[b]))
      {
        assert LineId(r[a]) == LineId(cart[a]) && LineId(r[b]) == LineId(cart[b]);
      }
    case None =>
      assert LineId(NewLine(item)) == id;
      forall a, b | 0 <= a < b < |r|
        ensures !StrictEquals(LineId(r[a]), LineId(r[b]))
      {
        if b == |cart| {
          StrictEqualsSymmetric(LineId(r[a]), id);
        } else {
          assert r[a] == cart[a] && r[b] == cart[b];
        }
      }
  }

  /** Whatever was in memory before is discarded: the result depends only on what storage held. */
  lemma AddIgnoresStaleMemory(m1: seq<Line>, m2: seq<Line>, st: Stored, item: Record, writeOk: bool)
    requires Present(EffectiveId(item))
    ensures AddToCart(Session(m1, st), item, writeOk) == AddToCart(Session(m2, st), item, writeOk)
  {
  }

  // ---------------------------------------------------------------------------
  // Item count of the floating cart button
  // ---------------------------------------------------------------------------

  /** `cart.reduce((sum, item) => sum + (item.quantity || 1), 0)` */
  function TotalItems(cart: seq<Line>): (r: real)
    ensures |cart| == 0 ==> r == 0.0
    ensures (forall i :: 0 <= i < |cart| ==> cart[i].quantity.None?) ==> r == |cart| as real
    ensures (forall i :: 0 <= i < |cart| ==> cart[i].quantity.None? || cart[i].quantity.value > 0.0) ==> r >= 0.0
    decreases |cart|
  {
    if |cart| == 0 then 0.0
    else TotalItems(cart[..|cart| - 1]) + QuantityOrOne(cart[|cart| - 1].quantity)
  }

  /** The count of a concatenation is the sum of the counts. */
  lemma {:induction false} TotalItemsAppend(a: seq<Line>, b: seq<Line>)
    ensures TotalItems(a + b) == TotalItems(a) + TotalItems(b)
    decreases |b|
  {
    if |b| == 0 {
      assert a + b == a;
    } else {
      assert (a + b)[..|a + b| - 1] == a + b[..|b| - 1];
      TotalItemsAppend(a, b[..|b| - 1]);
    }
  }

  /** When every quantity is absent or at least 1 the count is at least the number of lines. */
  lemma {:induction false} TotalItemsAtLeastLines(cart: seq<Line>)
    requires QuantitiesAtLeastOne(cart)
    ensures TotalItems(cart) >= |cart| as real
    decreases |cart|
  {
    if |cart| > 0 {
      TotalItemsAtLeastLines(cart[..|cart| - 1]);
    }
  }

  /** Replacing one line changes the count by the difference of that line's contributions. */
  lemma {:induction false} TotalItemsUpdate(cart: seq<Line>, i: nat, l: Line)
    requires i < |cart|
    ensures TotalItems(cart[i := l]) == TotalItems(cart) - QuantityOrOne(cart[i].quantity) + QuantityOrOne(l.quantity)
  {
    var r := cart[i := l];
    assert cart == cart[..i] + [cart[i]] + cart[i + 1..];
    assert r == cart[..i] + [l] + cart[i + 1..];
    TotalItemsAppend(cart[..i] + [cart[i]], cart[i + 1..]);
    TotalItemsAppend(cart[..i], [cart[i]]);
    TotalItemsAppend(cart[..i] + [l], cart[i + 1..]);
    TotalItemsAppend(cart[..i], [l]);
    assert [cart[i]][..0] == [] && [l][..0] == [];
  }

  /** On a cart whose quantities are absent or at least 1, every add raises the displayed count by exactly one. */
  lemma MergeCountsOneMore(cart: seq<Line>, item: Record)
    requires Present(EffectiveId(item))
    requires QuantitiesAtLeastOne(cart)
    ensures TotalItems(Merge(cart, item)) == TotalItems(cart) + 1.0
  {
    match FindLine(cart, EffectiveId(item))
    case Some(i) =>
      var q := QuantityOrOne(cart[i].quantity);
      var l := Line(cart[i].fields, Some(q + 1.0));
      assert Merge(cart, item) == cart[i := l];
      assert q >= 1.0;
      assert QuantityOrOne(l.quantity) == q + 1.0;
      TotalItemsUpdate(cart, i, l);
    case None =>
      assert Merge(cart, item) == cart + [NewLine(item)];
      TotalItemsAppend(cart, [NewLine(item)]);
      assert [NewLine(item)][..0] == [];
      assert TotalItems([NewLine(item)]) == 1.0;
  }

  /** An id that is a string, number or boolean; arrays and objects compare by reference. */
  predicate ScalarId(id: Option<Json>) {
    id.Some? && !id.value.Arr? && !id.value.Obj?
  }

  /**
   * Two adds of the same item to an empty cart give one line with quantity 2
   * and a count of 2, in memory and in storage, provided the id is a scalar.
   */
  lemma TwoAddsFromEmpty(item: Record)
    requires Present(EffectiveId(item)) && ScalarId(EffectiveId(item))
    ensures var s := AddToCart(AddToCart(Session([], Absent), item, true), item, true);
      && |s.memory| == 1
      && s.memory[0].quantity == Some(2.0)
      && s.memory[0].fields == item - {"quantity"}
      && TotalItems(s.memory) == 2.0
      && TotalItems(Load(s.storage)) == 2.0
  {
    var s1 := AddToCart(Session([], Absent), item, true);
    assert s1.memory == [NewLine(item)];
    StrictEqualsSymmetric(LineId(s1.memory[0]), EffectiveId(item));
    assert FindLine(s1.memory, EffectiveId(item)) == Some(0);
  }

  /** An item whose id is an array or an object never matches a line, so every add of it appends. */
  lemma ReferenceIdAlwaysAppends(cart: seq<Line>, item: Record)
    requires Present(EffectiveId(item)) && !ScalarId(EffectiveId(item))
    ensures Merge(cart, item) == cart + [NewLine(item)]
  {
    assert FindLine(cart, EffectiveId(item)).None?;
  }
}

=== FILE: image_resolver.dfy ===
/**
 * Where a menu item's picture comes from
 * (frontend/static/js/utils/image-resolver.js).  `encodeURIComponent` is the
 * parameter `encode`.
 */
module ImageResolver {
  import opened Wrappers
  import opened Json

  /** `encodeURIComponent`, left uninterpreted. */
  type Encoder = string -> string

  const FallbackImage: string := "/static/assets/fallback-image.jpeg"
  const AssetsPrefix: string := "/static/assets/"

  /** The properties tried after `image_url`, in this order. */
  const CandidateKeys: seq<string> := ["image", "filename", "img", "imageName", "photo", "imgUrl", "imagePath"]

  /** White space and line terminators as `String.prototype.trim` removes them (ECMA-262 WhiteSpace and LineTerminator). */
  predicate IsJsSpace(c: char) {
    var n := c as int;
    || n == 0x09 || n == 0x0A || n == 0x0B || n == 0x0C || n == 0x0D || n == 0x20
    || n == 0xA0 || n == 0x1680 || (0x2000 <= n <= 0x200A) || n == 0x2028 || n == 0x2029
    || n == 0x202F || n == 0x205F || n == 0x3000 || n == 0xFEFF
  }

  function TrimStart(s: string): (r: string)
    ensures |r| <= |s|
    decreases |s|
  {
    if |s| > 0 && IsJsSpace(s[0]) then TrimStart(s[1..]) else s
  }

  function TrimEnd(s: string): (r: string)
    ensures |r| <= |s|
    decreases |s|
  {
    if |s| > 0 && IsJsSpace(s[|s| - 1]) then TrimEnd(s[..|s| - 1]) else s
  }

  /** `s.trim()` */
  function Trim(s: string): (r: string)
    ensures |r| <= |s|
    ensures |s| > 0 && !IsJsSpace(s[0]) && !IsJsSpace(s[|s| - 1]) ==> r == s
  {
    TrimStart(TrimEnd(s))
  }

  lemma {:induction false} TrimStartEmptyIffBlank(s: string)
    ensures TrimStart(s) == "" <==> forall i :: 0 <= i < |s| ==> IsJsSpace(s[i])
    decreases |s|
  {
    if |s| > 0 && IsJsSpace(s[0]) {
      TrimStartEmptyIffBlank(s[1..]);
      assert forall i :: 1 <= i < |s| ==> s[i] == s[1..][i - 1];
    }
  }

  lemma {:induction false} TrimEndEmptyIffBlank(s: string)
    ensures TrimEnd(s) == "" <==> forall i :: 0 <= i < |s| ==> IsJsSpace(s[i])
    decreases |s|
  {
    if |s| > 0 && IsJsSpace(s[|s| - 1]) {
      TrimEndEmptyIffBlank(s[..|s| - 1]);
    }
  }

  /** Trimming leaves only the empty string exactly when every character is white space. */
  lemma TrimEmptyIffBlank(s: string)
    ensures Trim(s) == "" <==> forall i :: 0 <= i < |s| ==> IsJsSpace(s[i])
  {
    TrimEndEmptyIffBlank(s);
    TrimStartEmptyIffBlank(TrimEnd(s));
    if Trim(s) == "" && |TrimEnd(s)| > 0 {
      TrimEndKeepsPrefix(s);
    }
  }

  /** `TrimEnd` keeps a prefix of its input, and ends in a non-space character unless it is empty. */
  lemma {:induction false} TrimEndKeepsPrefix(s: string)
    ensures TrimEnd(s) <= s
    ensures |TrimEnd(s)| > 0 ==> !IsJsSpace(TrimEnd(s)[|TrimEnd(s)| - 1])
    ensures forall i :: |TrimEnd(s)| <= i < |s| ==> IsJsSpace(s[i])
    decreases |s|
  {
    if |s| > 0 && IsJsSpace(s[|s| - 1]) {
      TrimEndKeepsPrefix(s[..|s| - 1]);
    }
  }

  /** A value that starts with "/" or "http" is used as it is. */
  predicate IsPathOrUrl(s: string) {
    "/" <= s || "http" <= s
  }

  /** A path or URL is kept; a bare file name is placed under the assets folder, encoded. */
  function FromFilename(s: string, encode: Encoder): (r: string)
    ensures IsPathOrUrl(s) ==> r == s
    ensures !IsPathOrUrl(s) ==> r == AssetsPrefix + encode(s) && AssetsPrefix <= r
  {
    if IsPathOrUrl(s) then s else AssetsPrefix + encode(s)
  }

  /** A candidate property that is used: a truthy string.  Falsy values and non-strings are skipped. */
  predicate Usable(v: Option<Json>) {
    Present(v) && v.value.Str?
  }

  /** `image_url` wins when it is a string with something other than white space in it. */
  predicate UsableImageUrl(o: Record) {
    "image_url" in o && o["image_url"].Str? && Trim(o["image_url"].s) != ""
  }

  /** The candidate loop: the first usable property decides; none gives the fallback. */
  function ScanCandidates(o: Record, keys: seq<string>, encode: Encoder): (r: string)
    ensures r != ""
    decreases |keys|
  {
    if |keys| == 0 then FallbackImage
    else
      var v := Get(o, keys[0]);
      if Usable(v) then FromFilename(v.value.s, encode)
      else ScanCandidates(o, keys[1..], encode)
  }

  /**
   * `resolveImageUrl(item)`: never returns the empty string, and never fails
   * for the strings modelled here (sequences of Unicode scalar values, so no
   * lone surrogate reaches `encodeURIComponent`).
   */
  function ResolveImageUrl(item: Option<Json>, encode: Encoder): (r: string)
    ensures r != ""
    ensures !(item.Some? && item.value.Obj?) ==> r == FallbackImage
    ensures item.Some? && item.value.Obj? && UsableImageUrl(item.value.fields) ==> r == item.value.fields["image_url"].s
  {
    match item
    case Some(Obj(o)) =>
      if UsableImageUrl(o) then o["image_url"].s else ScanCandidates(o, CandidateKeys, encode)
    case _ =>
      // `undefined` becomes `{}`; null and primitives are refused; an array has none of the properties
      FallbackImage
  }

  /** The candidate scan returns the rendering of the first usable key, whatever the later keys hold. */
  lemma {:induction false} ScanFindsFirstUsable(o: Record, keys: seq<string>, encode: Encoder, i: nat)
    requires i < |keys| && Usable(Get(o, keys[i]))
    requires forall j :: 0 <= j < i ==> !Usable(Get(o, keys[j]))
    ensures ScanCandidates(o, keys, encode) == FromFilename(o[keys[i]].s, encode)
    decreases i
  {
    if i > 0 {
      assert !Usable(Get(o, keys[0]));
      ScanFindsFirstUsable(o, keys[1..], encode, i - 1);
    }
  }

  /** With no usable key the scan gives the fallback. */
  lemma {:induction false} ScanFallsBack(o: Record, keys: seq<string>, encode: Encoder)
    requires forall j :: 0 <= j < |keys| ==> !Usable(Get(o, keys[j]))
    ensures ScanCandidates(o, keys, encode) == FallbackImage
    decreases |keys|
  {
    if |keys| > 0 {
      assert !Usable(Get(o, keys[0]));
      ScanFallsBack(o, keys[1..], encode);
    }
  }

  /**
   * Without a usable `image_url`, the result comes from the first usable
   * candidate in the fixed order, or is the fallback when there is none.
   */
  lemma ResolveUsesFirstCandidate(o: Record, encode: Encoder)
    requires !UsableImageUrl(o)
    ensures forall i :: 0 <= i < |CandidateKeys| && Usable(Get(o, CandidateKeys[i]))
              && (forall j :: 0 <= j < i ==> !Usable(Get(o, CandidateKeys[j])))
              ==> ResolveImageUrl(Some(Obj(o)), encode) == FromFilename(o[CandidateKeys[i]].s, encode)
    ensures (forall j :: 0 <= j < |CandidateKeys| ==> !Usable(Get(o, CandidateKeys[j])))
              ==> ResolveImageUrl(Some(Obj(o)), encode) == FallbackImage
  {
    forall i | 0 <= i < |CandidateKeys| && Usable(Get(o, CandidateKeys[i]))
              && (forall j :: 0 <= j < i ==> !Usable(Get(o, CandidateKeys[j])))
      ensures ResolveImageUrl(Some(Obj(o)), encode) == FromFilename(o[CandidateKeys[i]].s, encode)
    {
      ScanFindsFirstUsable(o, CandidateKeys, encode, i);
    }
    if forall j :: 0 <= j < |CandidateKeys| ==> !Usable(Get(o, CandidateKeys[j])) {
      ScanFallsBack(o, CandidateKeys, encode);
    }
  }

  /** An `image_url` made only of white space does not count: the scan decides, from `image` on. */
  lemma BlankImageUrlIgnored(o: Record, encode: Encoder)
    requires "image_url" in o && o["image_url"].Str?
    requires forall i :: 0 <= i < |o["image_url"].s| ==> IsJsSpace(o["image_url"].s[i])
    ensures ResolveImageUrl(Some(Obj(o)), encode) == ScanCandidates(o, CandidateKeys, encode)
  {
    TrimEmptyIffBlank(o["image_url"].s);
  }
}

=== FILE: json.dfy ===
/**
 * JavaScript values as the front end sees them after `JSON.parse` or a fetch:
 * plain JSON data.  A property that is not present (JavaScript `undefined`)
 * is represented by `None` at the lookup, never by a value.
 */
module Json {
  import opened Wrappers

  /** Numbers are exact reals: the model has no NaN, no infinities and no rounding. */
  datatype Json =
    | Null
    | Bool(b: bool)
    | Num(n: real)
    | Str(s: string)
    | Arr(elems: seq<Json>)
    | Obj(fields: map<string, Json>)

  /** A JavaScript object's own properties. */
  type Record = map<string, Json>

  /** JavaScript truthiness: `null`, `false`, `0` and `""` are falsy, every array and object is truthy. */
  predicate Truthy(v: Json) {
    match v
    case Null => false
    case Bool(b) => b
    case Num(n) => n != 0.0
    case Str(s) => s != ""
    case Arr(_) => true
    case Obj(_) => true
  }

  /** Truthiness of a possibly absent property (`undefined` is falsy). */
  predicate Present(v: Option<Json>) {
    v.Some? && Truthy(v.value)
  }

  /** Property lookup `o[k]`; `None` is `undefined`. */
  function Get(o: Record, k: string): (r: Option<Json>)
    ensures r.Some? <==> k in o
    ensures r.Some? ==> r.value == o[k]
  {
    if k in o then Some(o[k]) else None
  }

  /** JavaScript `a || b`: the left operand when it is truthy, the right one otherwise. */
  function Or(a: Option<Json>, b: Option<Json>): (r: Option<Json>)
    ensures Present(r) <==> Present(a) || Present(b)
    ensures Present(a) ==> r == a
    ensures !Present(a) ==> r == b
  {
    if Present(a) then a else b
  }

  /**
   * JavaScript `a === b` between a value of a freshly parsed cart and a value
   * held by the caller.  Arrays and objects compare by reference, and two such
   * values never share a reference, so they are never strictly equal.
   */
  predicate StrictEquals(a: Option<Json>, b: Option<Json>) {
    match (a, b)
    case (None, None) => true
    case (Some(Null), Some(Null)) => true
    case (Some(Bool(x)), Some(Bool(y))) => x == y
    case (Some(Num(x)), Some(Num(y))) => x == y
    case (Some(Str(x)), Some(Str(y))) => x == y
    case _ => false
  }

  /** Strict equality is symmetric, and it coincides with value equality except on arrays and objects. */
  lemma StrictEqualsSymmetric(a: Option<Json>, b: Option<Json>)
    ensures StrictEquals(a, b) <==> StrictEquals(b, a)
    ensures StrictEquals(a, b) ==> a == b
    ensures a == b && !(a.Some? && (a.value.Arr? || a.value.Obj?)) ==> StrictEquals(a, b)
  {
  }

  /** `xs.join(sep)` over strings that are already converted. */
  function Join(xs: seq<string>, sep: string): (r: string)
    ensures |xs| == 0 ==> r == ""
    ensures |xs| == 1 ==> r == xs[0]
  {
    if |xs| == 0 then ""
    else if |xs| == 1 then xs[0]
    else Join(xs[..|xs| - 1], sep) + sep + xs[|xs| - 1]
  }

  /** Joining one more string appends the separator and that string, so order is kept. */
  lemma JoinSnoc(xs: seq<string>, x: string, sep: string)
    requires |xs| > 0
    ensures Join(xs + [x], sep) == Join(xs, sep) + sep + x
  {
    assert (xs + [x])[..|xs|] == xs;
  }

  /**
   * The text a template literal `${v}` produces.  Number formatting
   * (Number::toString in ECMA-262) is the parameter `num`.  Arrays are joined
   * with "," and their `null` elements become the empty string, as
   * `Array.prototype.join` does.
   */
  function ToText(v: Json, num: real -> string): (r: string)
    ensures v.Str? ==> r == v.s
    ensures v.Obj? ==> r == "[object Object]"
    decreases v
  {
    match v
    case Null => "null"
    case Bool(b) => if b then "true" else "false"
    case Num(n) => num(n)
    case Str(s) => s
    case Arr(xs) => Join(ElementTexts(v, xs, num), ",")
    case Obj(_) => "[object Object]"
  }

  /** Texts of the elements of the array `whole`, as `join` converts them. */
  function ElementTexts(ghost whole: Json, xs: seq<Json>, num: real -> string): (r: seq<string>)
    requires whole.Arr? && xs == whole.elems
    ensures |r| == |xs|
    decreases whole, 0
  {
    seq(|xs|, i requires 0 <= i < |xs| => if xs[i].Null? then "" else ToText(xs[i], num))
  }
}

=== FILE: legacy_menu.dfy ===
/**
 * The older menu page with its in-page cart (static/js/menu.js): a sample
 * catalogue, a category filter, and add / remove / change-quantity on a cart
 * that lives only in the page.
 */
module LegacyMenu {
  import opened Wrappers
  import Seqs

  /** A catalogue entry of the sample menu. */
  datatype Dish = Dish(
    id: string,
    name: string,
    description: string,
    price: real,
    category: string,
    image: string,
    available: bool)

  /** A cart line: a copy of the dish and its `quantity`. */
  datatype Entry = Entry(dish: Dish, quantity: int)

  /** The catalogue `loadMenu` installs into `menuItems`. */
  const SampleMenu: seq<Dish> := [
    Dish("1", "Grilled Salmon", "Fresh Atlantic salmon grilled to perfection with herbs and lemon",
         24.99, "main-course", "\U{1F41F}", true),
    Dish("2", "Pasta Carbonara", "Classic Italian pasta with bacon, eggs, and parmesan cheese",
         18.99, "main-course", "\U{1F35D}", true),
    Dish("3", "Caesar Salad", "Fresh romaine lettuce with Caesar dressing and parmesan",
         12.99, "appetizers", "\U{1F957}", true),
    Dish("4", "Bruschetta", "Toasted bread with tomatoes, garlic, and basil",
         9.99, "appetizers", "\U{1F35E}", true),
    Dish("5", "Chocolate Cake", "Rich chocolate layer cake with ganache",
         8.99, "desserts", "\U{1F370}", true),
    Dish("6", "Tiramisu", "Classic Italian dessert with coffee and mascarpone",
         9.99, "desserts", "\U{1F36E}", true),
    Dish("7", "Fresh Juice", "Freshly squeezed orange juice",
         5.99, "beverages", "\U{1F9C3}", true),
    Dish("8", "Coffee", "Freshly brewed coffee",
         3.99, "beverages", "\U{2615}", true),
    Dish("9", "Steak", "Prime ribeye steak cooked to your preference",
         32.99, "main-course", "\U{1F969}", true),
    Dish("10", "Chicken Wings", "Crispy chicken wings with your choice of sauce",
         14.99, "appetizers", "\U{1F357}", true)
  ]

  /** No two dishes share an id. */
  predicate DistinctIds(menu: seq<Dish>) {
    forall i, j :: 0 <= i < j < |menu| ==> menu[i].id != menu[j].id
  }

  /** No two cart lines share an id. */
  predicate DistinctEntryIds(cart: seq<Entry>) {
    forall i, j :: 0 <= i < j < |cart| ==> cart[i].dish.id != cart[j].dish.id
  }

  /** `menuItems.find(i => i._id === itemId)` */
  function FindDish(menu: seq<Dish>, id: string): (r: Option<Dish>)
    ensures r.Some? ==> r.value in menu && r.value.id == id
    ensures r.None? <==> forall i :: 0 <= i < |menu| ==> menu[i].id != id
  {
    match Seqs.FirstIndex(menu, (d: Dish) => d.id == id)
    case Some(i) => Some(menu[i])
    case None => None
  }

  /** The dish found is the first one with the id: no earlier dish has it. */
  lemma FindDishFirst(menu: seq<Dish>, id: string, i: nat)
    requires i < |menu| && menu[i].id == id
    ensures FindDish(menu, id).Some?
    ensures (forall j :: 0 <= j < i ==> menu[j].id != id) ==> FindDish(menu, id) == Some(menu[i])
  {
    var p := (d: Dish) => d.id == id;
    assert p(menu[i]);
  }

  /** The position of `cart.find(i => i._id === itemId)`. */
  function FindEntry(cart: seq<Entry>, id: string): (r: Option<nat>)
    ensures r.Some? ==> r.value < |cart| && cart[r.value].dish.id == id
    ensures r.Some? ==> forall j :: 0 <= j < r.value ==> cart[j].dish.id != id
    ensures r.None? <==> forall j :: 0 <= j < |cart| ==> cart[j].dish.id != id
  {
    Seqs.FirstIndex(cart, (e: Entry) => e.dish.id == id)
  }

  /**
   * The cart is well formed for a catalogue: one line per id, every quantity
   * at least 1, and every line holds the catalogue's dish for its id.
   */
  predicate Wf(menu: seq<Dish>, cart: seq<Entry>) {
    && DistinctEntryIds(cart)
    && (forall i :: 0 <= i < |cart| ==> cart[i].quantity >= 1)
    && (forall i :: 0 <= i < |cart| ==> FindDish(menu, cart[i].dish.id) == Some(cart[i].dish))
  }

  // ---------------------------------------------------------------------------
  // Catalogue
  // ---------------------------------------------------------------------------

  /** With distinct ids, looking a dish up by its id finds exactly that dish. */
  lemma FindDishUnambiguous(menu: seq<Dish>, i: nat)
    requires DistinctIds(menu) && i < |menu|
    ensures FindDish(menu, menu[i].id) == Some(menu[i])
  {
    var f := Seqs.FirstIndex(menu, (d: Dish) => d.id == menu[i].id);
    assert f.Some?;
    assert f.value == i;
  }

  /** The sample catalogue's ids are pairwise distinct. */
  lemma SampleMenuDistinct()
    ensures DistinctIds(SampleMenu)
  {
  }

  /** The test of `menuItems.filter(item => item.category === category)`. */
  function InCategory(category: string): (r: Dish -> bool)
  {
    (d: Dish) => d.category == category
  }

  /** The test of `cart.filter(item => item._id !== itemId)`. */
  function OtherId(id: string): (r: Entry -> bool)
  {
    (e: Entry) => e.dish.id != id
  }

  /**
   * The category filter of `setupFilters`: "all" shows the whole catalogue;
   * any other category shows the dishes of exactly that category, in order.
   */
  function FilterMenu(menu: seq<Dish>, category: string): (r: seq<Dish>)
    ensures category == "all" ==> r == menu
    ensures category != "all" ==> forall i :: 0 <= i < |r| ==> r[i].category == category && r[i] in menu
    ensures category != "all" ==> forall d :: d in menu && d.category == category ==> d in r
  {
    if category == "all" then menu else Seqs.Keep(menu, InCategory(category))
  }

  /** Filtering a catalogue split in two filters each part, so the catalogue's order is kept. */
  lemma FilterMenuKeepsOrder(a: seq<Dish>, b: seq<Dish>, category: string)
    ensures FilterMenu(a + b, category) == FilterMenu(a, category) + FilterMenu(b, category)
  {
    if category != "all" {
      Seqs.KeepAppend(a, b, InCategory(category));
    }
  }

  /** Filtering the result again by the same category changes nothing. */
  lemma FilterMenuIdempotent(menu: seq<Dish>, category: string)
    ensures FilterMenu(FilterMenu(menu, category), category) == FilterMenu(menu, category)
  {
    if category != "all" {
      Seqs.KeepIdempotent(menu, InCategory(category));
    }
  }

  /** The dessert button of the sample page shows the cake and the tiramisu. */
  lemma SampleDesserts()
    ensures var r := FilterMenu(SampleMenu, "desserts");
      |r| == 2 && r[0] == SampleMenu[4] && r[1] == SampleMenu[5]
  {
    var p := InCategory("desserts");
    var m := SampleMenu;
    var front, mid, back := m[..4], m[4..6], m[6..];
    assert m == front + mid + back;
    forall i | 0 <= i < |front|
      ensures !p(front[i])
    {
      assert front[i] == m[i];
    }
    forall i | 0 <= i < |back|
      ensures !p(back[i])
    {
      assert back[i] == m[i + 6];
    }
    assert mid == [m[4], m[5]];
    Seqs.KeepMiddle(front, mid, back, p);
  }

  // ---------------------------------------------------------------------------
  // Cart operations
  // ---------------------------------------------------------------------------

  /**
   * `addToCart(itemId)`: an id missing from the catalogue changes nothing; an
   * id already in the cart bumps that line; otherwise a copy of the dish is
   * appended with quantity 1.
   */
  function AddToCart(menu: seq<Dish>, cart: seq<Entry>, id: string): (r: seq<Entry>)
    ensures FindDish(menu, id).None? ==> r == cart
    ensures FindDish(menu, id).Some? && FindEntry(cart, id).None? ==> r == cart + [Entry(FindDish(menu, id).value, 1)]
    ensures FindEntry(cart, id).Some? ==> |r| == |cart|
  {
    match FindDish(menu, id)
    case None => cart
    case Some(d) =>
      match FindEntry(cart, id)
      case Some(i) => cart[i := Entry(cart[i].dish, cart[i].quantity + 1)]
      case None => cart + [Entry(d, 1)]
  }

  /** `removeFromCart(itemId)`: every line with that id goes, the others keep their order. */
  function RemoveFromCart(cart: seq<Entry>, id: string): (r: seq<Entry>)
    ensures forall i :: 0 <= i < |r| ==> r[i].dish.id != id && r[i] in cart
    ensures forall e :: e in cart && e.dish.id != id ==> e in r
  {
    Seqs.Keep(cart, OtherId(id))
  }

  /**
   * `updateQuantity(itemId, change)`: an unknown id changes nothing; otherwise
   * the line's quantity moves by `change` and the line is removed when the
   * result is 0 or less.
   */
  function UpdateQuantity(cart: seq<Entry>, id: string, change: int): (r: seq<Entry>)
    ensures FindEntry(cart, id).None? ==> r == cart
    ensures |r| <= |cart|
  {
    match FindEntry(cart, id)
    case None => cart
    case Some(i) =>
      var q := cart[i].quantity + change;
      if q <= 0 then RemoveFromCart(cart, id)
      else cart[i := Entry(cart[i].dish, q)]
  }

  /** The checkout form's success branch empties the cart; a rejected order keeps it. */
  function AfterOrder(cart: seq<Entry>, accepted: bool): (r: seq<Entry>)
    ensures accepted ==> |r| == 0
    ensures !accepted ==> r == cart
  {
    if accepted then [] else cart
  }

  /** Adding an id that is already in the cart raises that line's quantity by one and leaves every other line alone. */
  lemma AddExisting(menu: seq<Dish>, cart: seq<Entry>, id: string, i: nat)
    requires FindDish(menu, id).Some?
    requires i < |cart| && cart[i].dish.id == id
    requires forall j :: 0 <= j < i ==> cart[j].dish.id != id
    ensures |AddToCart(menu, cart, id)| == |cart|
    ensures AddToCart(menu, cart, id)[i] == Entry(cart[i].dish, cart[i].quantity + 1)
    ensures forall j :: 0 <= j < |cart| && j != i ==> AddToCart(menu, cart, id)[j] == cart[j]
  {
    assert FindEntry(cart, id) == Some(i);
  }

  /** Removing from a cart with distinct ids deletes exactly the one line with that id. */
  lemma RemoveDeletesOneLine(cart: seq<Entry>, id: string, i: nat)
    requires DistinctEntryIds(cart)
    requires i < |cart| && cart[i].dish.id == id
    ensures RemoveFromCart(cart, id) == cart[..i] + cart[i + 1..]
  {
    var p := OtherId(id);
    var front, back := cart[..i], cart[i + 1..];
    assert cart == front + [cart[i]] + back;
    forall j | 0 <= j < |front|
      ensures p(front[j])
    {
      assert front[j] == cart[j];
    }
    forall j | 0 <= j < |back|
      ensures p(back[j])
    {
      assert back[j] == cart[i + 1 + j];
      assert cart[i].dish.id != cart[i + 1 + j].dish.id;
    }
    Seqs.KeepAll(front, p);
    Seqs.KeepAll(back, p);
    Seqs.KeepNone([cart[i]], p);
    Seqs.KeepAppend(front, [cart[i]], p);
    assert Seqs.Keep(front + [cart[i]], p) == front;
    Seqs.KeepAppend(front + [cart[i]], back, p);
  }

  /** Removing an id that no line has changes nothing. */
  lemma RemoveAbsent(cart: seq<Entry>, id: string)
    requires forall j :: 0 <= j < |cart| ==> cart[j].dish.id != id
    ensures RemoveFromCart(cart, id) == cart
  {
    Seqs.KeepAll(cart, OtherId(id));
  }

  /**
   * On a cart with distinct ids, changing the quantity of the line at `i`
   * either replaces its quantity (result above 0) or deletes that line
   * (result 0 or less); no other line changes.
   */
  lemma UpdateExisting(cart: seq<Entry>, id: string, change: int, i: nat)
    requires DistinctEntryIds(cart)
    requires i < |cart| && cart[i].dish.id == id
    ensures cart[i].quantity + change > 0 ==>
      UpdateQuantity(cart, id, change) == cart[i := Entry(cart[i].dish, cart[i].quantity + change)]
    ensures cart[i].quantity + change <= 0 ==>
      UpdateQuantity(cart, id, change) == cart[..i] + cart[i + 1..]
  {
    assert FindEntry(cart, id) == Some(i);
    if cart[i].quantity + change <= 0 {
      RemoveDeletesOneLine(cart, id, i);
    }
  }

  /** Adding keeps the cart well formed. */
  lemma AddPreservesWf(menu: seq<Dish>, cart: seq<Entry>, id: string)
    requires Wf(menu, cart)
    ensures Wf(menu, AddToCart(menu, cart, id))
  {
    match FindDish(menu, id)
    case None =>
    case Some(d) =>
      match FindEntry(cart, id)
      case Some(i) =>
        WfBump(menu, cart, i);
      case None =>
        WfAppendNew(menu, cart, d);
  }

  /** Raising one line's quantity keeps a cart well formed. */
  lemma WfBump(menu: seq<Dish>, cart: seq<Entry>, i: nat)
    requires Wf(menu, cart) && i < |cart|
    ensures Wf(menu, cart[i := Entry(cart[i].dish, cart[i].quantity + 1)])
  {
    var r := cart[i := Entry(cart[i].dish, cart[i].quantity + 1)];
    forall j | 0 <= j < |r|
      ensures r[j].dish == cart[j].dish && r[j].quantity >= cart[j].quantity
    {
    }
  }

  /** Appending a catalogue dish whose id no line has keeps a cart well formed. */
  lemma WfAppendNew(menu: seq<Dish>, cart: seq<Entry>, d: Dish)
    requires Wf(menu, cart)
    requires FindDish(menu, d.id) == Some(d)
    requires forall j :: 0 <= j < |cart| ==> cart[j].dish.id != d.id
    ensures Wf(menu, cart + [Entry(d, 1)])
  {
    var r := cart + [Entry(d, 1)];
    assert forall j :: 0 <= j < |cart| ==> r[j] == cart[j];
    assert r[|cart|].dish == d;
  }

  /** Removing keeps the cart well formed. */
  lemma RemovePreservesWf(menu: seq<Dish>, cart: seq<Entry>, id: string)
    requires Wf(menu, cart)
    ensures Wf(menu, RemoveFromCart(cart, id))
  {
    match FindEntry(cart, id)
    case None =>
      RemoveAbsent(cart, id);
    case Some(i) =>
      RemoveDeletesOneLine(cart, id, i);
      WfDropOne(menu, cart, i);
  }

  /** Dropping one line keeps a cart well formed. */
  lemma WfDropOne(menu: seq<Dish>, cart: seq<Entry>, i: nat)
    requires Wf(menu, cart) && i < |cart|
    ensures Wf(menu, cart[..i] + cart[i + 1..])
  {
    var r := cart[..i] + cart[i + 1..];
    forall j | 0 <= j < |r|
      ensures r[j] == cart[if j < i then j else j + 1]
    {
    }
    forall j | 0 <= j < |r|
      ensures r[j].quantity >= 1 && FindDish(menu, r[j].dish.id) == Some(r[j].dish)
    {
      assert r[j] == cart[if j < i then j else j + 1];
    }
    forall a, b | 0 <= a < b < |r|
      ensures r[a].dish.id != r[b].dish.id
    {
      var a', b' := if a < i then a else a + 1, if b < i then b else b + 1;
      assert r[a] == cart[a'] && r[b] == cart[b'] && a' < b';
    }
  }

  /** Changing a quantity by any whole number keeps the cart well formed. */
  lemma UpdatePreservesWf(menu: seq<Dish>, cart: seq<Entry>, id: string, change: int)
    requires Wf(menu, cart)
    ensures Wf(menu, UpdateQuantity(cart, id, change))
  {
    match FindEntry(cart, id)
    case None =>
    case Some(i) =>
      if cart[i].quantity + change <= 0 {
        RemovePreservesWf(menu, cart, id);
      }
  }

  /** After an accepted order the next add starts a fresh one-line cart. */
  lemma AddAfterOrder(menu: seq<Dish>, cart: seq<Entry>, i: nat)
    requires DistinctIds(menu) && i < |menu|
    ensures AddToCart(menu, AfterOrder(cart, true), menu[i].id) == [Entry(menu[i], 1)]
  {
    FindDishUnambiguous(menu, i);
  }
}

=== FILE: menu_controller.dfy ===
/**
 * The JSON controllers of the menu API (backend/api/v1/menu/menu_controller.py):
 * the whole list, and one item with its status code.
 */
module MenuController {
  import opened Wrappers
  import opened MenuModel
  import PyInt

  /** The argument the route passes on: the path segment, or an integer when called directly. */
  datatype IdArg = Text(text: string) | Integer(n: int)

  /** What `jsonify` is given. */
  datatype Body = ItemBody(item: MenuItem) | ListBody(items: seq<MenuItem>) | ErrorBody(error: string)

  datatype Response = Response(body: Body, status: int)

  /** `int(item_id)`, or `None` where it raises ValueError. */
  function ParseId(arg: IdArg): (r: Option<int>)
    ensures arg.Integer? ==> r == Some(arg.n)
    ensures arg.Text? && (forall i :: 0 <= i < |arg.text| ==> !PyInt.IsDigit(arg.text[i])) ==> r.None?
    ensures arg.Text? && r.Some? ==> PyInt.DigitCount(arg.text) <= PyInt.MaxStrDigits
  {
    match arg
    case Text(s) => PyInt.ParseInt(s)
    case Integer(n) => Some(n)
  }

  /** `get_menu()`: the whole dataset with status 200. */
  function GetMenu(): (r: Response)
    ensures r.status == 200
    ensures r.body.ListBody? && |r.body.items| == 16
    ensures r.body == ListBody(MenuItems)
  {
    Response(ListBody(ListAllMenuItems()), 200)
  }

  /**
   * `get_menu_item_controller(item_id)`: 400 when the id is not an integer
   * (no lookup happens), 200 with the record when the lookup finds it, 404
   * otherwise.  Every record is a non-empty dictionary, so `if item:` is the
   * same test as "the lookup found something".
   */
  function GetMenuItem(arg: IdArg): (r: Response)
    ensures r.status == 200 || r.status == 400 || r.status == 404
    ensures ParseId(arg).None? <==> r == Response(ErrorBody("malformed input"), 400)
    ensures r.status == 200 <==> ParseId(arg).Some? && MenuById(MenuItems, ParseId(arg).value).Some?
    ensures r.status == 200 ==> r.body == ItemBody(MenuById(MenuItems, ParseId(arg).value).value)
    ensures r.status == 404 <==> r == Response(ErrorBody("Item not found"), 404)
  {
    match ParseId(arg)
    case None => Response(ErrorBody("malformed input"), 400)
    case Some(k) =>
      match MenuById(MenuItems, k)
      case Some(item) => Response(ItemBody(item), 200)
      case None => Response(ErrorBody("Item not found"), 404)
  }

  /** For the dataset: 200 exactly for the integers 1 to 16, with the record of that id. */
  lemma GetMenuItemStatus(arg: IdArg)
    ensures ParseId(arg).Some? && 1 <= ParseId(arg).value <= 16 ==>
      GetMenuItem(arg) == Response(ItemBody(MenuItems[ParseId(arg).value - 1]), 200)
    ensures ParseId(arg).Some? && !(1 <= ParseId(arg).value <= 16) ==>
      GetMenuItem(arg) == Response(ErrorBody("Item not found"), 404)
  {
    if ParseId(arg).Some? {
      var k := ParseId(arg).value;
      DatasetLookup(k);
      ResponseOfLookup(arg, k);
      if 1 <= k <= 16 {
        assert GetMenuItem(arg) == Response(ItemBody(MenuItems[k - 1]), 200);
      } else {
        assert GetMenuItem(arg) == Response(ErrorBody("Item not found"), 404);
      }
    }
  }

  /** The response to a parsed id is decided by the lookup alone. */
  lemma ResponseOfLookup(arg: IdArg, k: int)
    requires ParseId(arg) == Some(k)
    ensures MenuById(MenuItems, k).Some? ==> GetMenuItem(arg) == Response(ItemBody(MenuById(MenuItems, k).value), 200)
    ensures MenuById(MenuItems, k).None? ==> GetMenuItem(arg) == Response(ErrorBody("Item not found"), 404)
  {
  }

  /** A detail request whose path segment is the printed id of a record returns that record. */
  lemma PrintedIdIsFound(i: nat)
    requires i < |MenuItems|
    ensures GetMenuItem(Text(PyInt.IntText(MenuItems[i].id))) == Response(ItemBody(MenuItems[i]), 200)
  {
    DatasetIds();
    PyInt.ParseIntText(MenuItems[i].id);
    GetMenuItemStatus(Text(PyInt.IntText(MenuItems[i].id)));
  }
}

=== FILE: menu_model.dfy ===
/**
 * The backend's in-memory menu (backend/api/v1/menu/menu_model.py): sixteen
 * records with ids 1 to 16, the list accessor and the lookup by id.
 */
module MenuModel {
  import opened Wrappers
  import Seqs

  /** One menu record. */
  datatype MenuItem = MenuItem(
    id: int,
    name: string,
    description: string,
    price: real,
    category: string,
    image: string,
    dietary: seq<string>,
    allergens: seq<string>,
    availableDays: seq<string>)

  /** `menu_items`, in file order. */
  const MenuItems: seq<MenuItem> := [
    MenuItem(1, "Aurora Bites",
      "Crispy potato bites tossed in northern spice, served with cool dill sauce.",
      5.50, "starter",
      "https://via.placeholder.com/480x320?text=Aurora+Bites",
      ["vegetarian"], ["milk"],
      ["Monday", "Tuesday", "Wednesday", "Thursday", "Friday", "Saturday", "Sunday"]),
    MenuItem(2, "Nordic Salmon Skewers",
      "Grilled salmon skewers with lemon-herb glaze and a side of dill mayo.",
      9.75, "starter",
      "https://via.placeholder.com/480x320?text=Nordic+Salmon+Skewers",
      [], ["fish"],
      ["Friday", "Saturday", "Sunday"]),
    MenuItem(3, "Smoked Trout Salad",
      "Mixed leaves, smoked trout flakes, pickled cucumber and horseradish cream.",
      8.95, "starter",
      "https://via.placeholder.com/480x320?text=Smoked+Trout+Salad",
      [], ["fish", "dairy"],
      ["Friday", "Saturday"]),
    MenuItem(4, "Reindeer Stew",
      "Slow-cooked reindeer with root vegetables and lingonberry jus.",
      14.50, "main",
      "https://via.placeholder.com/480x320?text=Reindeer+Stew",
      [], [],
      ["Monday", "Tuesday", "Wednesday", "Thursday", "Friday"]),
    MenuItem(5, "Arctic Garden Bowl",
      "Warm grain bowl with roasted squash, kale, chickpeas and tahini dressing.",
      12.00, "main",
      "https://via.placeholder.com/480x320?text=Arctic+Garden+Bowl",
      ["vegan", "gluten-free"], ["sesame"],
      ["Monday", "Tuesday", "Wednesday", "Thursday", "Friday", "Saturday"]),
    MenuItem(6, "Firewood Salmon",
      "Oak-smoked salmon fillet, buttered new potatoes and seasonal greens.",
      16.50, "main",
      "https://via.placeholder.com/480x320?text=Firewood+Salmon",
      [], ["fish", "dairy"],
      ["Saturday", "Sunday"]),
    MenuItem(7, "Midnight Burger",
      "Grass-fed beef patty, melted cheese, caramelized onions and truffle mayo. Served with fries.",
      13.25, "main",
      "https://via.placeholder.com/480x320?text=Midnight+Burger",
      [], ["gluten", "dairy", "eggs"],
      ["Monday", "Tuesday", "Wednesday", "Thursday", "Friday"]),
    MenuItem(8, "Fjord Falafel Wrap",
      "Crispy falafel, pickled slaw and herb yogurt in a soft wrap.",
      9.00, "main",
      "https://via.placeholder.com/480x320?text=Fjord+Falafel+Wrap",
      ["vegetarian"], ["gluten", "sesame", "dairy"],
      ["Wednesday", "Thursday", "Friday", "Saturday"]),
    MenuItem(9, "Glazed Lingon Pancakes",
      "Light pancakes topped with lingonberry compote and whipped cream.",
      6.25, "dessert",
      "https://via.placeholder.com/480x320?text=Glazed+Lingon+Pancakes",
      ["vegetarian"], ["gluten", "eggs", "dairy"],
      ["Monday", "Tuesday", "Wednesday", "Thursday", "Friday", "Saturday", "Sunday"]),
    MenuItem(10, "Northern Lights Cheesecake",
      "Velvety cheesecake with a citrus glaze and berry dust.",
      6.75, "dessert",
      "https://via.placeholder.com/480x320?text=Northern+Lights+Cheesecake",
      ["vegetarian"], ["dairy", "eggs", "gluten"],
      ["Friday", "Saturday", "Sunday"]),
    MenuItem(11, "Crispy Fries",
      "Hand-cut fries tossed with sea salt.",
      3.50, "side",
      "https://via.placeholder.com/480x320?text=Crispy+Fries",
      ["vegan"], [],
      ["Monday", "Tuesday", "Wednesday", "Thursday", "Friday", "Saturday", "Sunday"]),
    MenuItem(12, "Midnight Berry Parfait",
      "Layers of yogurt, granola and midnight berries.",
      5.95, "dessert",
      "https://via.placeholder.com/480x320?text=Midnight+Berry+Parfait",
      ["vegetarian"], ["nuts", "dairy", "gluten"],
      ["Friday", "Saturday"]),
    MenuItem(13, "Cloudberry Spritz",
      "Refreshing cloudberry soda with a hint of lemon.",
      3.50, "drink",
      "https://via.placeholder.com/480x320?text=Cloudberry+Spritz",
      ["vegan"], [],
      ["Monday", "Tuesday", "Wednesday", "Thursday", "Friday", "Saturday", "Sunday"]),
    MenuItem(14, "Birch Latte",
      "Warm birch-infused latte (decaf option available).",
      3.00, "drink",
      "https://via.placeholder.com/480x320?text=Birch+Latte",
      ["vegetarian"], ["dairy"],
      ["Monday", "Tuesday", "Wednesday", "Thursday", "Friday"]),
    MenuItem(15, "Sparkling Sea Tonic",
      "Herbal sparkling tonic with sea-salt rim and citrus twist.",
      4.25, "drink",
      "https://via.placeholder.com/480x320?text=Sparkling+Sea+Tonic",
      ["vegan"], [],
      ["Monday", "Tuesday", "Wednesday", "Thursday", "Friday"]),
    MenuItem(16, "Chef\'s Northern Special",
      "Rotating chef special \U{E2}\U{20AC}\U{201D} ask for today\'s creation.",
      17.50, "special",
      "https://via.placeholder.com/480x320?text=Chefs+Northern+Special",
      [], [],
      ["Saturday"])
  ]

  /** No two records share an id. */
  predicate DistinctIds(items: seq<MenuItem>) {
    forall i, j :: 0 <= i < j < |items| ==> items[i].id != items[j].id
  }

  /** The dataset holds sixteen records whose ids are 1 to 16 in order, hence pairwise distinct. */
  lemma DatasetIds()
    ensures |MenuItems| == 16
    ensures forall i :: 0 <= i < |MenuItems| ==> MenuItems[i].id == i + 1
    ensures DistinctIds(MenuItems)
  {
  }

  /** `list_all_menu_items()`: the dataset itself, all sixteen records in file order. */
  function ListAllMenuItems(): (r: seq<MenuItem>)
    ensures |r| == 16
    ensures forall i :: 0 <= i < |r| ==> r[i].id == i + 1
    ensures r == MenuItems
  {
    DatasetIds();
    MenuItems
  }

  /** The record a linear scan for `k` stops at: the first with that id. */
  function MenuById(items: seq<MenuItem>, k: int): (r: Option<MenuItem>)
    ensures r.None? <==> forall i :: 0 <= i < |items| ==> items[i].id != k
    ensures r.Some? ==> r.value in items && r.value.id == k
  {
    match Seqs.FirstIndex(items, (m: MenuItem) => m.id == k)
    case Some(i) => Some(items[i])
    case None => None
  }

  /** `get_menu_by_id(item_id)`: the `for` loop with its early return. */
  method GetMenuById(items: seq<MenuItem>, k: int) returns (r: Option<MenuItem>)
    ensures r.None? <==> forall i :: 0 <= i < |items| ==> items[i].id != k
    ensures r.Some? ==> exists i :: 0 <= i < |items| && items[i] == r.value && r.value.id == k
                          && forall j :: 0 <= j < i ==> items[j].id != k
    ensures r == MenuById(items, k)
  {
    var n := 0;
    while n < |items|
      invariant 0 <= n <= |items|
      invariant forall j :: 0 <= j < n ==> items[j].id != k
    {
      if items[n].id == k {
        assert Seqs.FirstIndex(items, (m: MenuItem) => m.id == k) == Some(n);
        return Some(items[n]);
      }
      n := n + 1;
    }
    return None;
  }

  /** With distinct ids the record found for `k` is the only one with that id. */
  lemma MenuByIdUnique(items: seq<MenuItem>, i: nat)
    requires DistinctIds(items) && i < |items|
    ensures MenuById(items, items[i].id) == Some(items[i])
  {
    var f := Seqs.FirstIndex(items, (m: MenuItem) => m.id == items[i].id);
    assert f.Some?;
    assert f.value == i;
  }

  /** In the dataset, every id from 1 to 16 finds the record at position id - 1, and every other integer finds nothing. */
  lemma DatasetLookup(k: int)
    ensures 1 <= k <= 16 ==> MenuById(MenuItems, k) == Some(MenuItems[k - 1])
    ensures !(1 <= k <= 16) ==> MenuById(MenuItems, k) == None
  {
    DatasetIds();
    LookupByPosition(MenuItems, k);
  }

  /** In a list whose ids are the positions plus one, `k` finds position k - 1 when it exists, and nothing otherwise. */
  lemma LookupByPosition(items: seq<MenuItem>, k: int)
    requires forall i :: 0 <= i < |items| ==> items[i].id == i + 1
    ensures 1 <= k <= |items| ==> MenuById(items, k) == Some(items[k - 1])
    ensures !(1 <= k <= |items|) ==> MenuById(items, k) == None
  {
    if 1 <= k <= |items| {
      MenuByIdUnique(items, k - 1);
    }
  }
}

=== FILE: menu_renderer.dfy ===
/**
 * The data-dependent pieces of the item detail view
 * (frontend/static/js/ui/menuRenderer.js, `renderItemDetail`): list
 * normalisation, the picture source, the badge lists, the ingredient lines
 * and the price guard.  Number formatting is the parameter `num`
 * (template-literal conversion) or `toFixed` (`Number(v).toFixed(2)`).
 */
module MenuRenderer {
  import opened Wrappers
  import opened Json
  import ImageResolver

  /** Shown in the image's `onerror` handler when the picture fails to load. */
  const HeroImage: string := "/static/assets/hero-image.jpeg"

  /** `Array.isArray(v) ? v : (v ? [v] : [])` */
  function NormalizeList(v: Option<Json>): (r: seq<Json>)
    ensures v.Some? && v.value.Arr? ==> r == v.value.elems
    ensures !(v.Some? && v.value.Arr?) ==> |r| <= 1
    ensures !(v.Some? && v.value.Arr?) ==> (|r| == 1 <==> Present(v))
    ensures !(v.Some? && v.value.Arr?) && |r| == 1 ==> r[0] == v.value
  {
    if v.Some? && v.value.Arr? then v.value.elems
    else if Present(v) then [v.value]
    else []
  }

  /**
   * A single value and the one-element array holding it render the same
   * badges, for `dietary` and for `allergens` alike.
   */
  lemma ScalarRendersAsSingleton(o: Record, kind: string, x: Json, num: real -> string)
    requires Truthy(x) && !x.Arr?
    ensures FieldBadges(o[kind := x], kind, num) == FieldBadges(o[kind := Arr([x])], kind, num)
  {
    assert NormalizeList(Get(o[kind := x], kind)) == [x];
    assert NormalizeList(Get(o[kind := Arr([x])], kind)) == [x];
  }

  /**
   * `imgSrc`: `null` (here `None`) when `image` is falsy; a path or URL is
   * kept, a file name goes under the assets folder.  A truthy `image` that is
   * not a string has no `startsWith`, so the call throws a TypeError.
   */
  function ImgSrc(o: Record, encode: ImageResolver.Encoder): (r: Result<Option<string>>)
    ensures r.Ok? && r.value.None? <==> !Present(Get(o, "image"))
    ensures r.Err? <==> Present(Get(o, "image")) && !o["image"].Str?
    ensures r.Ok? && r.value.Some? ==> r.value.value != ""
    ensures r.Ok? && r.value.Some? ==>
      o["image"].Str? && r.value.value == ImageResolver.FromFilename(o["image"].s, encode)
  {
    var v := Get(o, "image");
    if !Present(v) then Ok(None)
    else if v.value.Str? then Ok(Some(ImageResolver.FromFilename(v.value.s, encode)))
    else Err("TypeError")
  }

  /** `${item.name}` where an absent property prints as "undefined". */
  function FieldText(o: Record, k: string, num: real -> string): (r: string)
    ensures k in o ==> r == ToText(o[k], num)
    ensures k !in o ==> r == "undefined"
  {
    if k in o then ToText(o[k], num) else "undefined"
  }

  /** The `<img>` tag, or nothing when there is no source. */
  function ImgHtml(o: Record, encode: ImageResolver.Encoder, num: real -> string): (r: Result<string>)
    ensures r.Err? <==> ImgSrc(o, encode).Err?
    ensures r.Ok? ==> (r.value == "" <==> !Present(Get(o, "image")))
    // the tag's `src` is `imgSrc`, its `alt` is `${item.name}`, and a failed load falls back to the hero image
    ensures ImgSrc(o, encode).Ok? && ImgSrc(o, encode).value.Some? ==>
      && r.Ok?
      && "<img src=\"" + ImgSrc(o, encode).value.value + "\" alt=\"" + FieldText(o, "name", num) + "\"" <= r.value
      && |ImgOnError| <= |r.value| && r.value[|r.value| - |ImgOnError|..] == ImgOnError
    // and between the two there is nothing else
    ensures ImgSrc(o, encode).Ok? && ImgSrc(o, encode).value.Some? ==>
      r == Ok("<img src=\"" + ImgSrc(o, encode).value.value + "\" alt=\"" + FieldText(o, "name", num) + "\"" + ImgOnError)
  {
    match ImgSrc(o, encode)
    case Err(e) => Err(e)
    case Ok(None) => Ok("")
    case Ok(Some(src)) =>
      Ok("<img src=\"" + src + "\" alt=\"" + FieldText(o, "name", num) + "\"" + ImgOnError)
  }

  /** The end of the tag: swap in the hero image once when the picture fails to load. */
  const ImgOnError: string := " onerror=\"this.onerror=null;this.src='" + HeroImage + "'\" />"

  /** The inline rule of the detail view and the shared resolver agree when `image` is the first usable property and there is no `image_url`. */
  lemma ImgSrcAgreesWithResolver(o: Record, encode: ImageResolver.Encoder)
    requires !ImageResolver.UsableImageUrl(o)
    requires ImageResolver.Usable(Get(o, "image"))
    ensures ImgSrc(o, encode) == Ok(Some(ImageResolver.ResolveImageUrl(Some(Obj(o)), encode)))
  {
    ImageResolver.ScanFindsFirstUsable(o, ImageResolver.CandidateKeys, encode, 0);
  }

  /** One badge: `<span class="tag tag--KIND">TEXT</span>`. */
  function Badge(kind: string, v: Json, num: real -> string): (r: string)
    ensures "<span class=\"tag tag--" <= r
  {
    "<span class=\"tag tag--" + kind + "\">" + ToText(v, num) + "</span>"
  }

  function Badges(kind: string, xs: seq<Json>, num: real -> string): (r: seq<string>)
    ensures |r| == |xs|
    ensures forall i :: 0 <= i < |xs| ==> r[i] == Badge(kind, xs[i], num)
  {
    seq(|xs|, i requires 0 <= i < |xs| => Badge(kind, xs[i], num))
  }

  /** A list rendered as badges joined by one space, or "None" when it is empty. */
  function BadgeList(kind: string, xs: seq<Json>, num: real -> string): (r: string)
    ensures |xs| == 1 ==> r == Badge(kind, xs[0], num)
  {
    if |xs| > 0 then Join(Badges(kind, xs, num), " ") else "None"
  }

  /** "None" is shown exactly for the empty list, since every badge starts with "<". */
  lemma {:induction false} BadgeListNoneIffEmpty(kind: string, xs: seq<Json>, num: real -> string)
    ensures BadgeList(kind, xs, num) == "None" <==> |xs| == 0
    decreases |xs|
  {
    if |xs| > 0 {
      JoinStartsWithFirst(Badges(kind, xs, num), " ");
      assert BadgeList(kind, xs, num)[0] == '<';
    }
  }

  /** A join of a non-empty list starts with its first element. */
  lemma {:induction false} JoinStartsWithFirst(xs: seq<string>, sep: string)
    requires |xs| > 0
    ensures xs[0] <= Join(xs, sep)
    decreases |xs|
  {
    if |xs| > 1 {
      JoinStartsWithFirst(xs[..|xs| - 1], sep);
    }
  }

  /** One more element adds one more badge at the end, after a single space. */
  lemma BadgeListSnoc(kind: string, xs: seq<Json>, x: Json, num: real -> string)
    requires |xs| > 0
    ensures BadgeList(kind, xs + [x], num) == BadgeList(kind, xs, num) + " " + Badge(kind, x, num)
  {
    assert Badges(kind, xs + [x], num) == Badges(kind, xs, num) + [Badge(kind, x, num)];
    JoinSnoc(Badges(kind, xs, num), Badge(kind, x, num), " ");
  }

  /**
   * The "Suitable for:" and "Allergens:" texts: the property `kind`
   * ("dietary" or "allergens") normalised to a list and rendered as badges
   * of that kind.
   */
  function FieldBadges(o: Record, kind: string, num: real -> string): (r: string)
    ensures r == "None" <==> |NormalizeList(Get(o, kind))| == 0
    ensures |NormalizeList(Get(o, kind))| > 0 ==> r == BadgeList(kind, NormalizeList(Get(o, kind)), num)
  {
    BadgeListNoneIffEmpty(kind, NormalizeList(Get(o, kind)), num);
    BadgeList(kind, NormalizeList(Get(o, kind)), num)
  }

  /** A single value given as a plain string renders as one badge; an absent or empty one as "None". */
  lemma FieldBadgesScalarOrAbsent(o: Record, kind: string, num: real -> string)
    ensures Present(Get(o, kind)) && !o[kind].Arr? ==> FieldBadges(o, kind, num) == Badge(kind, o[kind], num)
    ensures !Present(Get(o, kind)) ==> FieldBadges(o, kind, num) == "None"
  {
  }

  /**
   * One `<li>`: a falsy entry renders nothing, a string renders as it is,
   * anything else as its `name` (or "") in bold followed by ": description"
   * when the description is truthy.
   */
  function IngredientLine(ing: Json, num: real -> string): (r: string)
    ensures !Truthy(ing) ==> r == ""
    ensures ing.Str? && Truthy(ing) ==> r == "<li>" + ing.s + "</li>"
    ensures Truthy(ing) && !ing.Str? ==> "<li><strong>" <= r
    // a record: the name (or "") in bold, then ": description" exactly when the description is truthy
    ensures ing.Obj? && !Present(Get(ing.fields, "description")) ==>
      r == "<li><strong>" + NameText(ing.fields, num) + "</strong></li>"
    ensures ing.Obj? && Present(Get(ing.fields, "description")) ==>
      r == "<li><strong>" + NameText(ing.fields, num) + "</strong>: "
           + ToText(ing.fields["description"], num) + "</li>"
    // numbers, `true` and arrays have neither property
    ensures Truthy(ing) && !ing.Str? && !ing.Obj? ==> r == "<li><strong></strong></li>"
  {
    if !Truthy(ing) then ""
    else if ing.Str? then "<li>" + ing.s + "</li>"
    else if !ing.Obj? then "<li><strong></strong></li>"
    else if Present(Get(ing.fields, "description")) then
      "<li><strong>" + NameText(ing.fields, num) + "</strong>: " + ToText(ing.fields["description"], num) + "</li>"
    else
      "<li><strong>" + NameText(ing.fields, num) + "</strong></li>"
  }

  /** `ing.name || ''` as text: the name when it is truthy, the empty string otherwise. */
  function NameText(props: Record, num: real -> string): (r: string)
    ensures !Present(Get(props, "name")) ==> r == ""
    ensures Present(Get(props, "name")) ==> r == ToText(props["name"], num)
  {
    ToText(Or(Get(props, "name"), Some(Str(""))).value, num)
  }

  /** Strings concatenated in order (`join('')`). */
  function Concat(xs: seq<string>): (r: string)
    ensures |xs| == 0 ==> r == ""
    decreases |xs|
  {
    if |xs| == 0 then "" else Concat(xs[..|xs| - 1]) + xs[|xs| - 1]
  }

  lemma {:induction false} ConcatAppend(a: seq<string>, b: seq<string>)
    ensures Concat(a + b) == Concat(a) + Concat(b)
    decreases |b|
  {
    if |b| == 0 {
      assert a + b == a;
    } else {
      assert (a + b)[..|a + b| - 1] == a + b[..|b| - 1];
      ConcatAppend(a, b[..|b| - 1]);
    }
  }

  /** `item.ingredients.map(...)` */
  function IngredientLines(xs: seq<Json>, num: real -> string): (r: seq<string>)
    ensures |r| == |xs|
    ensures forall i :: 0 <= i < |xs| ==> r[i] == IngredientLine(xs[i], num)
  {
    seq(|xs|, i requires 0 <= i < |xs| => IngredientLine(xs[i], num))
  }

  /** `item.ingredients.map(...).join('')` */
  function IngredientItems(xs: seq<Json>, num: real -> string): (r: string)
    ensures |xs| == 1 ==> r == IngredientLine(xs[0], num)
  {
    assert |xs| == 1 ==> Concat(IngredientLines(xs, num)) == Concat([]) + IngredientLines(xs, num)[0];
    Concat(IngredientLines(xs, num))
  }

  const IngredientsOpen: string := "\n\t\t<div class=\"menu-detail__ingredients\">\n\t\t\t<h4>Ingredients</h4>\n\t\t\t<ul>"
  const IngredientsClose: string := "</ul>\n\t\t</div>"

  /** The ingredients block: present only for a non-empty array. */
  function IngredientsBlock(v: Option<Json>, num: real -> string): (r: string)
    ensures r == "" <==> !(v.Some? && v.value.Arr? && |v.value.elems| > 0)
    ensures r != "" ==> r == IngredientsOpen + IngredientItems(v.value.elems, num) + IngredientsClose
  {
    match v
    case Some(Arr(xs)) =>
      if |xs| > 0 then IngredientsOpen + IngredientItems(xs, num) + IngredientsClose else ""
    case _ => ""
  }

  /** The items of a list split in two are the items of each part, in order. */
  lemma IngredientItemsAppend(a: seq<Json>, b: seq<Json>, num: real -> string)
    ensures IngredientItems(a + b, num) == IngredientItems(a, num) + IngredientItems(b, num)
  {
    assert IngredientLines(a + b, num) == IngredientLines(a, num) + IngredientLines(b, num);
    ConcatAppend(IngredientLines(a, num), IngredientLines(b, num));
  }

  /** Falsy entries contribute nothing to the list. */
  lemma IngredientItemsSkipFalsy(a: seq<Json>, b: seq<Json>, x: Json, num: real -> string)
    requires !Truthy(x)
    ensures IngredientItems(a + [x] + b, num) == IngredientItems(a + b, num)
  {
    IngredientItemsAppend(a + [x], b, num);
    IngredientItemsAppend(a, [x], num);
    IngredientItemsAppend(a, b, num);
    assert IngredientItems([x], num) == "";
    assert IngredientItems(a, num) + "" == IngredientItems(a, num);
  }

  /** `price`: the empty string when absent or null, `Number(price).toFixed(2)` otherwise. */
  function PriceText(o: Record, toFixed: Json -> string): (r: string)
    ensures !("price" in o) || o["price"].Null? ==> r == ""
    ensures "price" in o && !o["price"].Null? ==> r == toFixed(o["price"])
  {
    if "price" in o && !o["price"].Null? then toFixed(o["price"]) else ""
  }

  /**
   * `toFixed` always yields at least one character, so the price text is
   * empty exactly when the guard skips formatting.
   */
  lemma PriceTextEmptyIffMissing(o: Record, toFixed: Json -> string)
    requires forall v :: toFixed(v) != ""
    ensures PriceText(o, toFixed) == "" <==> !("price" in o) || o["price"].Null?
  {
    if "price" in o && !o["price"].Null? {
      assert toFixed(o["price"]) != "";
    }
  }

  /** The computed pieces of the detail fragment. */
  datatype Detail = Detail(dietary: string, allergens: string, ingredients: string, price: string, img: string)

  /**
   * The pure part of `renderItemDetail`: every piece above, or the TypeError
   * thrown while computing `imgSrc`.
   */
  function RenderParts(o: Record, encode: ImageResolver.Encoder, num: real -> string, toFixed: Json -> string): (r: Result<Detail>)
    ensures r.Err? <==> Present(Get(o, "image")) && !o["image"].Str?
    ensures r.Ok? ==> r.value.dietary == FieldBadges(o, "dietary", num) && r.value.allergens == FieldBadges(o, "allergens", num)
    ensures r.Ok? ==> r.value.ingredients == IngredientsBlock(Get(o, "ingredients"), num)
    ensures r.Ok? ==> r.value.price == PriceText(o, toFixed)
    ensures r.Ok? ==> (r.value.img == "" <==> !Present(Get(o, "image")))
    ensures r.Ok? ==> ImgHtml(o, encode, num) == Ok(r.value.img)
    ensures r.Err? ==> ImgHtml(o, encode, num).Err?
  {
    match ImgHtml(o, encode, num)
    case Err(e) => Err(e)
    case Ok(img) =>
      Ok(Detail(FieldBadges(o, "dietary", num), FieldBadges(o, "allergens", num), IngredientsBlock(Get(o, "ingredients"), num),
                PriceText(o, toFixed), img))
  }
}

=== FILE: py_int.dfy ===
/**
 * Python's `int(text)` on the path segment of a request, simplified: white
 * space around the number, an optional sign, ASCII decimal digits, and
 * single underscores between digits, at most `MaxStrDigits` digits in all.
 */
module PyInt {
  import opened Wrappers

  /**
   * The characters `int()` strips: ASCII tab, line feed, vertical tab, form
   * feed, carriage return and space, and the non-ASCII characters
   * `str.isspace` accepts.  The ASCII separators U+001C to U+001F are not
   * stripped, although `str.isspace` accepts them.
   */
  predicate IsPySpace(c: char) {
    var n := c as int;
    || (0x09 <= n <= 0x0D) || n == 0x20 || n == 0x85 || n == 0xA0 || n == 0x1680
    || (0x2000 <= n <= 0x200A) || n == 0x2028 || n == 0x2029 || n == 0x202F || n == 0x205F || n == 0x3000
  }

  predicate IsDigit(c: char) {
    '0' <= c <= '9'
  }

  function DigitValue(c: char): (r: nat)
    requires IsDigit(c)
    ensures r < 10
  {
    (c as int) - ('0' as int)
  }

  function DigitChar(d: nat): (c: char)
    requires d < 10
    ensures IsDigit(c) && DigitValue(c) == d
  {
    (('0' as int) + d) as char
  }

  function StripStart(s: string): (r: string)
    ensures |r| <= |s|
    ensures |r| > 0 ==> !IsPySpace(r[0])
    decreases |s|
  {
    if |s| > 0 && IsPySpace(s[0]) then StripStart(s[1..]) else s
  }

  /** Stripping the start removes a run of white space and keeps the rest. */
  lemma {:induction false} StripStartDropsSpaces(s: string)
    ensures StripStart(s) == s[|s| - |StripStart(s)|..]
    ensures forall i :: 0 <= i < |s| - |StripStart(s)| ==> IsPySpace(s[i])
    decreases |s|
  {
    if |s| > 0 && IsPySpace(s[0]) {
      StripStartDropsSpaces(s[1..]);
      assert forall i :: 1 <= i < |s| ==> s[i] == s[1..][i - 1];
    }
  }

  function StripEnd(s: string): (r: string)
    ensures |r| <= |s|
    ensures |r| > 0 ==> !IsPySpace(r[|r| - 1])
    decreases |s|
  {
    if |s| > 0 && IsPySpace(s[|s| - 1]) then StripEnd(s[..|s| - 1]) else s
  }

  /** Stripping the end removes a run of white space and keeps the rest. */
  lemma {:induction false} StripEndDropsSpaces(s: string)
    ensures StripEnd(s) == s[..|StripEnd(s)|]
    ensures forall i :: |StripEnd(s)| <= i < |s| ==> IsPySpace(s[i])
    decreases |s|
  {
    if |s| > 0 && IsPySpace(s[|s| - 1]) {
      StripEndDropsSpaces(s[..|s| - 1]);
    }
  }

  /** Digits, where an underscore may only stand between two digits. */
  predicate WellFormedDigits(b: string) {
    && |b| > 0
    && IsDigit(b[0])
    && IsDigit(b[|b| - 1])
    && (forall i :: 0 <= i < |b| ==> IsDigit(b[i]) || b[i] == '_')
    && (forall i :: 0 <= i < |b| - 1 ==> !(b[i] == '_' && b[i + 1] == '_'))
  }

  /**
   * The default of `sys.get_int_max_str_digits()`: since CPython 3.11 (and
   * the 2022 security releases of 3.7 to 3.10) `int` refuses decimal text
   * with more digits than this, and `str` refuses to print such integers.
   */
  const MaxStrDigits: nat := 4300

  /** How many decimal digits the text holds; underscores, signs and spaces do not count. */
  function DigitCount(s: string): (r: nat)
    ensures r <= |s|
    decreases |s|
  {
    if |s| == 0 then 0
    else DigitCount(s[..|s| - 1]) + (if IsDigit(s[|s| - 1]) then 1 else 0)
  }

  /** Text without a digit counts none, and text of digits only counts every character. */
  lemma {:induction false} DigitCountBounds(s: string)
    ensures DigitCount(s) == 0 <==> forall i :: 0 <= i < |s| ==> !IsDigit(s[i])
    ensures (forall i :: 0 <= i < |s| ==> IsDigit(s[i])) ==> DigitCount(s) == |s|
    decreases |s|
  {
    if |s| > 0 {
      DigitCountBounds(s[..|s| - 1]);
      assert forall i :: 0 <= i < |s| - 1 ==> s[..|s| - 1][i] == s[i];
    }
  }

  lemma {:induction false} DigitCountAppend(a: string, b: string)
    ensures DigitCount(a + b) == DigitCount(a) + DigitCount(b)
    decreases |b|
  {
    if |b| == 0 {
      assert a + b == a;
    } else {
      assert (a + b)[..|a + b| - 1] == a + b[..|b| - 1];
      DigitCountAppend(a, b[..|b| - 1]);
    }
  }

  /** The decimal value of the digits, underscores ignored. */
  function DigitsValue(b: string): (r: nat)
    ensures |b| == 0 ==> r == 0
    requires forall i :: 0 <= i < |b| ==> IsDigit(b[i]) || b[i] == '_'
    decreases |b|
  {
    if |b| == 0 then 0
    else if b[|b| - 1] == '_' then DigitsValue(b[..|b| - 1])
    else DigitsValue(b[..|b| - 1]) * 10 + DigitValue(b[|b| - 1])
  }

  /** The text `int` reads digits from: white space stripped, then one sign dropped. */
  function Unsigned(s: string): (r: string)
    ensures |r| <= |s|
  {
    var t := StripEnd(StripStart(s));
    if |t| > 0 && (t[0] == '-' || t[0] == '+') then t[1..] else t
  }

  /** Stripping white space at the start removes no digit. */
  lemma StripStartKeepsDigits(s: string)
    ensures DigitCount(StripStart(s)) == DigitCount(s)
  {
    var u := StripStart(s);
    StripStartDropsSpaces(s);
    var pre := s[..|s| - |u|];
    assert s == pre + u;
    SpacesNoDigits(pre);
    DigitCountAppend(pre, u);
  }

  /** Stripping white space at the end removes no digit. */
  lemma StripEndKeepsDigits(u: string)
    ensures DigitCount(StripEnd(u)) == DigitCount(u)
  {
    var t := StripEnd(u);
    StripEndDropsSpaces(u);
    var post := u[|t|..];
    assert u == t + post;
    SpacesNoDigits(post);
    DigitCountAppend(t, post);
  }

  /** Dropping one sign removes no digit, and what is left starts with a character of the text. */
  lemma UnsignedDigits(s: string)
    ensures DigitCount(Unsigned(s)) == DigitCount(s)
    ensures |Unsigned(s)| > 0 ==> exists i :: 0 <= i < |s| && s[i] == Unsigned(s)[0]
  {
    var u := StripStart(s);
    var t := StripEnd(u);
    var body := Unsigned(s);
    StripStartKeepsDigits(s);
    StripEndKeepsDigits(u);
    if |t| > 0 && (t[0] == '-' || t[0] == '+') {
      assert t == [t[0]] + t[1..];
      DigitCountAppend([t[0]], t[1..]);
      assert [t[0]][..0] == [];
    }
    if |body| > 0 {
      StripStartDropsSpaces(s);
      StripEndDropsSpaces(u);
      assert s[|s| - |u| + (|t| - |body|)] == body[0];
    }
  }

  /** White space holds no digit. */
  lemma SpacesNoDigits(s: string)
    requires forall i :: 0 <= i < |s| ==> IsPySpace(s[i])
    ensures DigitCount(s) == 0
  {
    assert forall i :: 0 <= i < |s| ==> !IsDigit(s[i]);
    DigitCountBounds(s);
  }

  /**
   * `int(s)`, or `None` where Python raises ValueError: text without a digit,
   * anything but white space, one sign, digits and single inner underscores,
   * and text with more than `MaxStrDigits` digits.
   */
  function ParseInt(s: string): (r: Option<int>)
    ensures (forall i :: 0 <= i < |s| ==> !IsDigit(s[i])) ==> r.None?
    ensures r.Some? ==> DigitCount(s) <= MaxStrDigits
  {
    var t := StripEnd(StripStart(s));
    var negative := |t| > 0 && t[0] == '-';
    var body := Unsigned(s);
    UnsignedDigits(s);
    DigitCountBounds(s);
    DigitCountBounds(body);
    if WellFormedDigits(body) && DigitCount(body) <= MaxStrDigits then
      var v: int := DigitsValue(body);
      Some(if negative then -v else v)
    else None
  }

  /** `str(n)` for a non-negative integer. */
  function NatText(n: nat): (r: string)
    ensures |r| > 0
    ensures forall i :: 0 <= i < |r| ==> IsDigit(r[i])
    decreases n
  {
    if n < 10 then [DigitChar(n)] else NatText(n / 10) + [DigitChar(n % 10)]
  }

  /** `str(n)` */
  function IntText(n: int): (r: string) {
    if n < 0 then "-" + NatText(-n) else NatText(n)
  }

  lemma {:induction false} NatTextValue(n: nat)
    ensures DigitsValue(NatText(n)) == n
    decreases n
  {
    var r := NatText(n);
    if n >= 10 {
      NatTextValue(n / 10);
      assert r[..|r| - 1] == NatText(n / 10);
    }
  }

  /**
   * Python reads back exactly the integer that `str` printed, for every
   * integer `str` prints: one of at most `MaxStrDigits` digits.
   */
  lemma ParseIntText(n: int)
    requires |NatText(if n < 0 then -n else n)| <= MaxStrDigits
    ensures ParseInt(IntText(n)) == Some(n)
  {
    var m: nat := if n < 0 then -n else n;
    var digits := NatText(m);
    var s := IntText(n);
    UnsignedIntText(n);
    assert Unsigned(s) == digits;
    assert WellFormedDigits(digits);
    DigitCountBounds(digits);
    assert DigitCount(digits) <= MaxStrDigits;
    NatTextValue(m);
    assert DigitsValue(digits) == m;
    ParseIntAccepts(s);
  }

  /** The digits `int` reads from a printed integer are its magnitude's digits, signed exactly when it is negative. */
  lemma UnsignedIntText(n: int)
    ensures Unsigned(IntText(n)) == NatText(if n < 0 then -n else n)
    ensures var t := StripEnd(StripStart(IntText(n))); (|t| > 0 && t[0] == '-') <==> n < 0
  {
    var s := IntText(n);
    var digits := NatText(if n < 0 then -n else n);
    assert !IsPySpace(s[0]) && !IsPySpace(s[|s| - 1]);
    StripNothing(s);
    if n < 0 {
      assert s[1..] == digits;
    } else {
      assert IsDigit(s[0]);
    }
  }

  /** Well-formed digits within the limit are read with the sign in front of them. */
  lemma ParseIntAccepts(s: string)
    requires WellFormedDigits(Unsigned(s)) && DigitCount(Unsigned(s)) <= MaxStrDigits
    ensures var t, v: int := StripEnd(StripStart(s)), DigitsValue(Unsigned(s));
      ParseInt(s) == Some(if |t| > 0 && t[0] == '-' then -v else v)
  {
  }

  /** Text that neither starts nor ends with white space is not stripped. */
  lemma StripNothing(s: string)
    requires |s| > 0 && !IsPySpace(s[0]) && !IsPySpace(s[|s| - 1])
    ensures StripEnd(StripStart(s)) == s
  {
    assert StripStart(s) == s;
    assert StripEnd(s) == s;
  }

  /** Surrounding white space and an underscore between digits are accepted. */
  lemma ParseIntPadded()
    ensures ParseInt(" 1_6\n") == Some(16)
  {
    assert StripStart(" 1_6\n") == "1_6\n" by {
      assert " 1_6\n"[1..] == "1_6\n";
    }
    assert StripEnd("1_6\n") == "1_6" by {
      assert "1_6\n"[..3] == "1_6";
    }
    assert Unsigned(" 1_6\n") == "1_6";
    assert WellFormedDigits("1_6");
    assert DigitsValue("1_6") == 16 by {
      assert "1_6"[..2] == "1_";
      assert "1_"[..1] == "1";
      assert "1"[..0] == "";
    }
    ParseIntAccepts(" 1_6\n");
  }

  /** A sign and leading zeros are accepted. */
  lemma ParseIntSigned()
    ensures ParseInt("-07") == Some(-7)
  {
    assert StripStart("-07") == "-07";
    assert StripEnd("-07") == "-07";
    assert Unsigned("-07") == "07" by {
      assert "-07"[1..] == "07";
    }
    assert WellFormedDigits("07");
    assert DigitsValue("07") == 7 by {
      assert "07"[..1] == "0";
      assert "0"[..0] == "";
    }
    ParseIntAccepts("-07");
  }

  /** Words, empty text and doubled underscores are refused. */
  lemma ParseIntRejects()
    ensures ParseInt("abc") == None
    ensures ParseInt("") == None
    ensures ParseInt("1__6") == None
  {
    assert Unsigned("abc") == "abc" by {
      assert StripStart("abc") == "abc";
      assert StripEnd("abc") == "abc";
    }
    assert !IsDigit("abc"[0]);
    assert Unsigned("") == "";
    assert Unsigned("1__6") == "1__6" by {
      assert StripStart("1__6") == "1__6";
      assert StripEnd("1__6") == "1__6";
    }
    assert "1__6"[1] == '_' && "1__6"[2] == '_';
  }

  /** An ASCII information separator is not white space to `int()`, so "\x1c5" is refused. */
  lemma ParseIntRefusesSeparator()
    ensures ParseInt("\U{1C}5") == None
  {
    assert !IsPySpace("\U{1C}5"[0]) && !IsPySpace("\U{1C}5"[1]);
    StripNothing("\U{1C}5");
    assert Unsigned("\U{1C}5") == "\U{1C}5";
    assert !IsDigit("\U{1C}5"[0]);
  }
}

=== FILE: seqs.dfy ===
/** Searching and filtering sequences (JavaScript `find` and `filter`, a Python `for` loop with an early return). */
module Seqs {
  import opened Wrappers

  /** The position of the first element satisfying `p`, or `None` when there is none. */
  function FirstIndex<T>(s: seq<T>, p: T -> bool): (r: Option<nat>)
    ensures r.Some? ==> r.value < |s| && p(s[r.value])
    ensures r.Some? ==> forall j :: 0 <= j < r.value ==> !p(s[j])
    ensures r.None? <==> forall j :: 0 <= j < |s| ==> !p(s[j])
    decreases |s|
  {
    if |s| == 0 then None
    else
      match FirstIndex(s[..|s| - 1], p)
      case Some(i) => Some(i)
      case None => if p(s[|s| - 1]) then Some(|s| - 1) else None
  }

  /** The elements of `s` that satisfy `p`, in their original order. */
  function Keep<T>(s: seq<T>, p: T -> bool): (r: seq<T>)
    ensures |r| <= |s|
    ensures forall i :: 0 <= i < |r| ==> p(r[i]) && r[i] in s
    ensures forall x :: x in s && p(x) ==> x in r
    decreases |s|
  {
    if |s| == 0 then []
    else Keep(s[..|s| - 1], p) + (if p(s[|s| - 1]) then [s[|s| - 1]] else [])
  }

  /** Filtering distributes over concatenation: relative order is kept. */
  lemma {:induction false} KeepAppend<T>(a: seq<T>, b: seq<T>, p: T -> bool)
    ensures Keep(a + b, p) == Keep(a, p) + Keep(b, p)
    decreases |b|
  {
    if |b| == 0 {
      assert a + b == a;
    } else {
      assert (a + b)[..|a + b| - 1] == a + b[..|b| - 1];
      KeepAppend(a, b[..|b| - 1], p);
    }
  }

  /** Nothing is dropped when every element satisfies the predicate. */
  lemma {:induction false} KeepAll<T>(s: seq<T>, p: T -> bool)
    requires forall i :: 0 <= i < |s| ==> p(s[i])
    ensures Keep(s, p) == s
    decreases |s|
  {
    if |s| > 0 {
      var init, last := s[..|s| - 1], s[|s| - 1];
      forall i | 0 <= i < |init|
        ensures p(init[i])
      {
        assert init[i] == s[i];
      }
      KeepAll(init, p);
      assert Keep(s, p) == init + [last];
      assert init + [last] == s;
    }
  }

  /** Everything is dropped when no element satisfies the predicate. */
  lemma {:induction false} KeepNone<T>(s: seq<T>, p: T -> bool)
    requires forall i :: 0 <= i < |s| ==> !p(s[i])
    ensures Keep(s, p) == []
    decreases |s|
  {
    if |s| > 0 {
      KeepNone(s[..|s| - 1], p);
    }
  }

  /** Filtering keeps exactly the middle part when only the middle part satisfies the predicate. */
  lemma KeepMiddle<T>(a: seq<T>, b: seq<T>, c: seq<T>, p: T -> bool)
    requires forall i :: 0 <= i < |a| ==> !p(a[i])
    requires forall i :: 0 <= i < |b| ==> p(b[i])
    requires forall i :: 0 <= i < |c| ==> !p(c[i])
    ensures Keep(a + b + c, p) == b
  {
    KeepNone(a, p);
    KeepAll(b, p);
    KeepNone(c, p);
    KeepAppend(a, b, p);
    assert Keep(a + b, p) == b;
    KeepAppend(a + b, c, p);
    assert b + [] == b;
  }

  /** Filtering twice with the same predicate is filtering once. */
  lemma KeepIdempotent<T>(s: seq<T>, p: T -> bool)
    ensures Keep(Keep(s, p), p) == Keep(s, p)
  {
    KeepAll(Keep(s, p), p);
  }
}

=== FILE: wrappers.dfy ===
/** Optional values and results shared by every module of the model. */
module Wrappers {

  /** A value that may be missing: a JavaScript `undefined` property, a Python `None`. */
  datatype Option<+T> = None | Some(value: T)

  /** The outcome of a computation that may throw; `Err` carries the exception's kind. */
  datatype Result<+T> = Ok(value: T) | Err(error: string)
}
